=== FILE: README.md ===
# User-file pipeline: normalise, validate, deduplicate, upload

A Dafny model of the core of a batch pipeline for CSV files of user records. A run
takes one object from a bucket and fingerprints its bytes. It skips content whose
processed output already exists. Otherwise it parses the CSV and normalises the
table:

- column names are stripped, lower-cased and underscored;
- name, email, country and tier text is stripped, with email and tier lower-cased
  and country capitalised;
- `user_id` and `age` are coerced to numbers and `signup_date` to a timestamp.

It then validates the table. A missing required column is a schema error: the
whole normalised table is uploaded to the error key. Otherwise the rows are split
by a five-part business rule. The valid rows are deduplicated on `user_id`, first
occurrence kept, and uploaded to the processed key; the invalid rows go to the
error key. Each upload happens only when its part has a row.

The modules follow the program:

- `Text` holds strip, case and integer text.
- `Dates` holds ISO date coercion.
- `Masks` holds boolean-mask selection.
- `Tables` holds cells, rows and tables.
- `Cleaning` models `normalize_dataframe`.
- `EmailPattern` models the email regex.
- `Validation` models `validate_dataframe`.
- `Dedup` models `drop_duplicates`.
- `Runner` models `run_pipeline`.

The runner is a pure function of a store (a map from keys to bytes) and of three
parameters: the content fingerprint, the CSV reader and the CSV writer. It returns
an outcome and the sequence of uploads. `Apply` plays those uploads onto the store.

The model follows the code where it does more than its docstrings say. A header
in which two columns are renamed to the same rule column makes normalisation
raise, outside the handler that catches the schema error. The model gives this its
own outcome, `HeaderClash`, which writes nothing. A header-only file is not an
error: validation splits it into two empty parts, and the run completes with zero
counts and no upload.

## Model

| member | source | states |
|---|---|---|
| Text.Trim | pipeline/cleaning.py:53 | the stripped text has no whitespace at either end and is the input with a whitespace-only prefix and suffix removed (Python's whitespace set) |
| Text.TrimOfTrimmed | pipeline/cleaning.py:81 | stripping text that has no surrounding whitespace changes nothing |
| Text.TrimIdempotent | pipeline/cleaning.py:81 | stripping twice gives what stripping once gives |
| Text.Lower | pipeline/cleaning.py:54 | lower-casing keeps the length, maps each character on its own, and leaves no upper-case letter |
| Text.LowerFixedPoints | pipeline/cleaning.py:85 | lower-casing leaves text unchanged exactly when it has no upper-case letter |
| Text.Capitalize | pipeline/cleaning.py:88 | capitalising keeps the length, upper-cases the first character and lower-cases every later one |
| Text.CapitalizeFixedPoints | pipeline/cleaning.py:88 | the result is always capitalised, and capitalising fixes exactly the capitalised texts |
| Text.ReplaceSpaces | pipeline/cleaning.py:55 | each space becomes an underscore and nothing else changes, so no space remains and case and trimming survive |
| Text.IntTextRoundTrip | pipeline/cleaning.py:112-116 | parsing the decimal text of any integer gives the integer back |
| Text.ParseIntNeedsDigits | pipeline/cleaning.py:112-116 | text with a character that is neither a digit nor a leading sign never parses as an integer |
| Dates.ParseDate | pipeline/cleaning.py:118-122 | a date is produced only from `YYYY-MM-DD` text |
| Dates.DateTextRoundTrip | pipeline/cleaning.py:118-122 | every timestamp date prints as text that parses back to that date |
| Dates.ParsedDateRendersBack | pipeline/cleaning.py:118-122 | text that parses is the canonical text of its date, so two different texts never give the same date |
| Dates.EmptyIsNotADate | pipeline/cleaning.py:119-121 | empty text coerces to a missing date |
| Dates.IsoDateParses | pipeline/cleaning.py:118-122 | "2024-01-01" is 1 January 2024 |
| Dates.NoThirtiethOfFebruary | pipeline/cleaning.py:118-122 | a day missing from the calendar ("2023-02-30") coerces to a missing date |
| Masks.SelectSplits | pipeline/validation.py:59-60 | `df[mask]` and `df[~mask]` interleave back to the whole sequence, each in original order |
| Masks.MergeMultiset | pipeline/validation.py:59-60 | the two parts of an interleaving hold exactly the elements of the whole, with multiplicity |
| Masks.PartitionByProperty | pipeline/validation.py:56-60 | when the mask is a property of each element, the selection holds only elements with it and the rest only elements without it |
| Masks.MergeByPropertyIsSelect | pipeline/validation.py:56-60 | an order-preserving split by the property is the mask split and no other |
| Masks.SelectKeeps | pipeline/pipeline_runner.py:62 | an element whose mask entry is true is in the selection |
| Masks.SelectedFrom | pipeline/pipeline_runner.py:62 | a selection holds only elements of the whole |
| Tables.IndexOf | pipeline/validation.py:104 | `row[name]` reads the first column of that name |
| Cleaning.NormalizeColumnName | pipeline/cleaning.py:51-56 | a renamed column has no surrounding whitespace, no upper-case letter and no space, and is as long as the stripped name |
| Cleaning.CanonicalNameFixed | pipeline/cleaning.py:51-56 | renaming leaves a name unchanged exactly when the name is already in that canonical form |
| Cleaning.ColumnNameIdempotent | pipeline/cleaning.py:51-56 | renaming twice gives what renaming once gives |
| Cleaning.UserIdHeaderExample | pipeline/cleaning.py:46-47 | the header " User ID " becomes "user_id" |
| Cleaning.NormalizeColumns | pipeline/cleaning.py:37-57 | every column is renamed in place and the rows are untouched |
| Cleaning.RuleColumnRoles | pipeline/cleaning.py:76-118 | the seven rule columns get the string, numeric or date treatment their rules name |
| Cleaning.CleanString | pipeline/cleaning.py:79-91 | a column outside the four string columns keeps its cell; a string column's cell becomes text with no surrounding whitespace, in its column's case shape, as long as the stripped rendering and equal to it up to case; a name is exactly the stripped rendering |
| Cleaning.CleanTextKeepsLetters | pipeline/cleaning.py:79-91 | the text rules keep the stripped text's length and agree with it up to case, and a name keeps its case |
| Cleaning.NormalizeStrings | pipeline/cleaning.py:60-93 | each cell is rewritten by its own column's string rule, and the header and row order are kept |
| Cleaning.NormalizeStringsIdempotent | pipeline/cleaning.py:60-93 | the string step applied twice equals it applied once |
| Cleaning.ToNumeric | pipeline/cleaning.py:112-116 | numbers and missing values pass through; text becomes a number exactly when it parses as an integer, and that number is its value; anything else becomes missing |
| Cleaning.ToDatetime | pipeline/cleaning.py:118-122 | timestamps and missing values pass through; text becomes a timestamp exactly when it parses as a date, and empty text becomes missing |
| Cleaning.ConvertCell | pipeline/cleaning.py:112-122 | numeric columns end numeric or missing, the date column ends a timestamp or missing, and every other column is unchanged |
| Cleaning.ConvertTypes | pipeline/cleaning.py:96-124 | each cell is converted by its own column's type rule, and the header and row order are kept |
| Cleaning.NormalizeCell | pipeline/cleaning.py:29-32 | a normalised cell is in its column's clean shape, and a column no rule names keeps its cell |
| Cleaning.StepsComposeByCell | pipeline/cleaning.py:25-32 | the three steps compose cell by cell, each cell ruled by its renamed column |
| Cleaning.Normalize | pipeline/cleaning.py:4-34 | the same rows in the same order, renamed columns, every cell clean for its column, and unnamed columns unchanged |
| Cleaning.NormalizeDataframe | pipeline/cleaning.py:22-34 | normalisation fails exactly when the renamed header repeats a rule column; otherwise it is `Normalize`, and every rule column then occurs once |
| Cleaning.PaddedDuplicateFails | pipeline/cleaning.py:51-81 | a rule column given both bare and padded with spaces makes normalisation fail |
| Cleaning.CleanCellFixed | pipeline/cleaning.py:79-122 | a cell already in clean shape is left as it is |
| Cleaning.NormalizeFixesNormalized | pipeline/cleaning.py:4-34 | a normalised table is left unchanged by normalisation |
| Cleaning.NormalizeIdempotent | pipeline/cleaning.py:4-34 | normalising twice gives what normalising once gives |
| Cleaning.NormalizeDataframeIdempotent | pipeline/cleaning.py:4-34 | a successful normalisation normalises again, successfully, to itself |
| Cleaning.MissingStringBecomesNan | pipeline/cleaning.py:81 | a missing string cell becomes the text "nan" ("Nan" in the country column) rather than staying missing |
| Cleaning.MissingTextIsNan | pipeline/cleaning.py:79-91 | a missing name, email or tier ends normalisation as "nan" |
| Cleaning.CountryExamples | pipeline/cleaning.py:87-88 | "brazil" and "bRAZIL" both become "Brazil" |
| EmailPattern.Matches | pipeline/validation.py:135 | `re.match` with the pattern succeeds exactly when the text, or the text without one final newline, splits as the pattern reads |
| EmailPattern.FullMatchCorrect | pipeline/validation.py:28 | the matcher accepts exactly the texts that split into a part before `@`, a part before the last `.` and a word-character suffix |
| EmailPattern.FullMatchSound | pipeline/validation.py:28 | every accepted text has such a split |
| EmailPattern.FullMatchComplete | pipeline/validation.py:28 | every text with such a split is accepted |
| EmailPattern.NoAtNoMatch | pipeline/validation.py:135 | text without `@` never matches, even with a trailing newline |
| EmailPattern.NotAnEmailRejected | pipeline/validation.py:135 | "not-an-email" does not match |
| EmailPattern.SimpleAddressAccepted | pipeline/validation.py:135 | "a@x.com" matches |
| Validation.MissingColumns | pipeline/validation.py:80 | the missing columns are exactly the required columns the header lacks |
| Validation.SchemaColumnsPresent | pipeline/validation.py:80-83 | when nothing is missing, every column the row rule reads is in the header |
| Validation.ExtraColumnsTolerated | pipeline/validation.py:75-77 | extra columns never add a missing column |
| Validation.SchemaIgnoresOrder | pipeline/validation.py:80 | headers with the same names in any order or repetition miss the same columns |
| Validation.MissingAgeAndCountry | pipeline/validation.py:80-83 | a header without `age` and `country` reports exactly those two |
| Validation.ValidEmail | pipeline/validation.py:122-135 | a missing value fails; a passing value's text contains `@`; on text without surrounding whitespace the rule is the whole-text reading of the pattern |
| Validation.ValidAge | pipeline/validation.py:138-151 | an age passes exactly when `int` reads it as some positive integer, from a number or from integer text with whitespace around it |
| Validation.AgeTextAgrees | pipeline/validation.py:148-149 | an integer, its decimal text, and that text padded with spaces get the same age verdict |
| Validation.IsValidRow | pipeline/validation.py:86-119 | a passing row has a user id and a signup date, an email containing `@`, one of the four tiers and a positive integer age, each read at its column |
| Validation.ValidMask | pipeline/validation.py:56 | the mask has one entry per row, and each entry is that row's verdict |
| Validation.SplitByRule | pipeline/validation.py:56-60 | the two parts interleave to the table; the first holds only passing rows, the second only failing rows |
| Validation.Validate | pipeline/validation.py:31-62 | schema error exactly when a required column is missing, carrying the missing set; otherwise an ordered split into passing and failing rows, two empty parts for a table with no rows |
| Validation.PartitionComplete | pipeline/validation.py:59-60 | every row lands in exactly one part, the part sizes add up to the table size, and no row is in both parts |
| Validation.PartitionUnique | pipeline/validation.py:56-60 | for every table with the schema, the validator's split is the only ordered split by the rule |
| Validation.ExtraColumnsKeepRowValidity | pipeline/validation.py:75-119 | appending columns that repeat no rule column changes no row's verdict |
| Validation.TrimmedEmailMatch | pipeline/validation.py:135 | on stripped text `re.match` agrees with the full-match reading of the pattern |
| Validation.CleanCellsValidity | pipeline/validation.py:104-119 | on clean cells the five rules ask for a numeric user id, a fully matching email, a timestamp, a positive numeric age and an exact tier |
| Validation.NormalizedRowValidity | pipeline/validation.py:86-119 | a row of a normalised table passes exactly when its user id is a number, its email matches, its signup date is a timestamp, its age is a positive number and its tier is an accepted tier |
| Validation.TierExamples | pipeline/validation.py:116 | "premium" is a tier, while "pro" and a missing value are not |
| Validation.AgeExamples | pipeline/validation.py:148-151 | 30 is a valid age, while 0, -5 and a missing value are not |
| Validation.EmailExamples | pipeline/validation.py:132-135 | "a@x.com" is a valid email, while "not-an-email" and a missing value are not |
| Validation.NoAtFailsEmailRule | pipeline/validation.py:132-135 | text without `@` fails the email rule |
| Validation.MissingTextRejected | pipeline/validation.py:107-117 | a missing email or tier, normalised, fails both the email rule and the tier rule |
| Dedup.Duplicated | pipeline/pipeline_runner.py:62 | a row is marked exactly when an earlier row has the same key |
| Dedup.DropDuplicates | pipeline/pipeline_runner.py:62 | the kept rows come from the input, have pairwise distinct keys and between them every key of the input, and include every row that is the first with its key |
| Dedup.FirstOccurrencesKeys | pipeline/pipeline_runner.py:62 | selecting by the negated `duplicated` mask leaves pairwise distinct keys and loses none |
| Dedup.FirstOccurrencesKept | pipeline/pipeline_runner.py:62 | selecting by the negated `duplicated` mask keeps every row that is the first with its key |
| Dedup.DropDuplicatesKeepsOrder | pipeline/pipeline_runner.py:62 | kept and dropped rows interleave to the input, so the kept rows stay in order |
| Dedup.DropDuplicatesCount | pipeline/pipeline_runner.py:62-64 | as many rows are kept as there are distinct keys |
| Dedup.DistinctKeysUnchanged | pipeline/pipeline_runner.py:62 | rows whose keys are already distinct come through unchanged |
| Dedup.DropDuplicatesIdempotent | pipeline/pipeline_runner.py:62 | deduplicating twice gives what deduplicating once gives |
| Dedup.DropDuplicateKeys | pipeline/pipeline_runner.py:62 | a single pass with a set of seen keys computes the same rows |
| Runner.ProcessedKey | pipeline/pipeline_runner.py:38 | the processed key is the prefix, then the fingerprint, then `.csv`, and the fingerprint can be read back from it |
| Runner.ErrorKey | pipeline/pipeline_runner.py:39 | the error key is the prefix, then the fingerprint, then `.csv`, and the fingerprint can be read back from it |
| Runner.OutputKeysDiffer | pipeline/pipeline_runner.py:38-39 | a processed key is never an error key |
| Runner.OutputKeysInjective | pipeline/pipeline_runner.py:38-39 | distinct fingerprints give distinct keys |
| Runner.ApplyLookup | pipeline/storage.py:20-34 | after the uploads a key holds the CSV of its last upload, or its old content if never written |
| Runner.ApplyTwice | pipeline/storage.py:20-34 | repeating the same uploads leaves the store as the first time |
| Runner.Deduplicated | pipeline/pipeline_runner.py:62 | the kept rows are `drop_duplicates` on the user id of the valid rows: they come from the valid rows, have distinct user ids, cover every user id, keep the first row for each user id, and keep their order, interleaving with the dropped repeats back to the valid rows |
| Runner.Uploads | pipeline/pipeline_runner.py:67-72 | the processed upload happens exactly when a kept row exists and the error upload exactly when an invalid row exists |
| Runner.Process | pipeline/pipeline_runner.py:46-72 | the run fails on a header clash, writing nothing, exactly when the renamed header repeats a rule column; it is a schema failure exactly when the normalised header lacks a required column, and then writes the normalised table to the error key and reports the missing columns; otherwise it is processed, reporting the file, the fingerprint and the raw row count, and a table with no rows is processed with zero counts and no writes |
| Runner.HeaderOnlyIsProcessed | pipeline/pipeline_runner.py:46-84 | a file with the full schema and no data rows completes as processed with zero counts and nothing uploaded |
| Runner.RunPipeline | pipeline/pipeline_runner.py:22-84 | the file is not found exactly when it is absent from the store, is skipped exactly when its processed key exists, and is unreadable exactly when it is not skipped and the reader rejects it; none of these, nor a header clash, writes anything; a run writes only its two output keys |
| Runner.RowAccounting | pipeline/pipeline_runner.py:48-65 | total rows are valid rows plus invalid rows plus rows dropped as repeated user ids |
| Runner.ProcessedShape | pipeline/pipeline_runner.py:61-72 | a processed run uploads the deduplicated valid part and the invalid part, and reports their sizes |
| Runner.UploadedKeptRows | pipeline/pipeline_runner.py:62-69 | a processed upload exists exactly when at least one row survives, and holds passing rows with distinct user ids covering every valid user id, the first row for each user id, in their original order |
| Runner.ProcessedKeyHoldsCleanRows | pipeline/pipeline_runner.py:61-69 | what a processed run uploads to the processed key is the valid part with repeated user ids removed, the first row for each kept in order, exactly when at least one row survives |
| Runner.ErrorKeyHoldsFailingRows | pipeline/pipeline_runner.py:71-72 | what a processed run uploads to the error key is exactly the failing rows, exactly when one exists |
| Runner.RunTouchesOnlyOutputKeys | pipeline/pipeline_runner.py:38-72 | no key other than the two output keys changes |
| Runner.RunDependsOnlyOnMarker | pipeline/pipeline_runner.py:33-47 | a run reads the store only through the file's bytes and the presence of its processed key |
| Runner.ValidRowsMarkContent | pipeline/pipeline_runner.py:68-69 | a run with a valid row leaves its processed key behind |
| Runner.RerunIsNoOp | pipeline/pipeline_runner.py:41-44 | once the processed key exists, rerunning the same bytes is skipped and leaves the store unchanged |
| Runner.UnmarkedRerunRepeats | pipeline/pipeline_runner.py:41-72 | a run that leaves no processed key is repeated in full by a rerun, and leaves the same store |
| Runner.SchemaFailureWritesOnce | pipeline/pipeline_runner.py:54-59 | a schema failure uploads exactly the normalised table to the error key and creates no processed key |

## Left out

- Text.Lower: ASCII letters only; Python's `str.lower` also maps every other Unicode letter ("É" to "é").
- Text.Capitalize: ASCII letters only, like `Text.Lower`. Python's `str.capitalize` also title-cases the first letter and handles special cases such as "ß".
- EmailPattern.IsWordChar: `\w` is taken as ASCII letters, digits and `_`. Python's `\w` on `str` patterns also matches every Unicode letter and digit, so an address like "josé@x.com" matches in the program but not here.
- Dates.ParseDate: only `YYYY-MM-DD` text, parsed cell by cell. pandas infers one format for the whole column and accepts others ("01/02/2024", "2024-01-01 10:00", surrounding spaces). The difference cuts both ways. Text in another format becomes missing here, so a row can be rejected that the program accepts. And when the column's first text is in another format ("01/02/2024"), pandas coerces a later "2024-01-01" to missing where the model gives a date, so a row can be accepted here that the program rejects.
- Cleaning.ToNumeric: integer text only. pandas also accepts surrounding spaces, decimals and exponents (" 30 ", "30.0", "1e3"). Such an id or age becomes missing here, so its row is rejected where the program may accept it (`int(30.5)` is 30).
- Cleaning.ToDatetime: a numeric `signup_date` becomes missing. pandas reads an integer column as nanoseconds since 1970-01-01 and gives a non-missing timestamp (20240101 is a moment in 1970), so such a row is valid in the program and rejected here.
- Tables.Render: a number prints as an integer and a timestamp as `YYYY-MM-DD`. pandas prints a numeric column holding a missing value as floats ("30.0"), and `str` of a timestamp adds " 00:00:00". This matters only when a string column holds numbers or dates.
- Validation.ValidAge: the age text must be optional sign plus digits after stripping. Python's `int` also accepts underscores between digits and non-ASCII digits, and truncates a float.
- Validation.IsValidRow: a name that occurs twice is read at its first column. In pandas `row[name]` is then a two-cell series, and the rule raises or, for the age, fails. A run never reaches this, because normalisation already fails on such a header (`Cleaning.NormalizeDataframe`).
- Validation.ExtraColumnsKeepRowValidity: stated only for extra columns that repeat no rule column, for the reason given for `Validation.IsValidRow`.
- Numbers are integers. Floating-point columns, and the float conversion pandas applies to an integer column with a missing value, are not modelled.
- The content hash (MD5 hex digest, pipeline/utils.py) is the `fingerprint` parameter. It is a deterministic function with no other property assumed, so a collision between two contents is possible in the model as in the program.
- `pd.read_csv` is the `parse` parameter, which returns nothing for unreadable bytes. Its type inference and its renaming of repeated raw header names ("a", "a.1") are the parameter's business.
- `DataFrame.to_csv` is the `toCsv` parameter.
- The cloud bucket (pipeline/storage.py) is a map from keys to bytes. A download of an absent object is `NotFound`. Network and permission failures are not modelled.
- Timing and logging (the start time, the rounded processing time, the log lines and the metrics dictionary) are left out. `Summary` keeps the counts the metrics report.
- The hourly scheduler (dags/user_pipeline_dag.py), which lists raw files and calls `run_pipeline` for each, is left out. So is concurrency: two overlapping runs of the same content can both pass the skip check and both upload, while the model describes one run at a time against a fixed store.

=== FILE: cleaning.dfy ===
/** The normaliser: canonical column names, canonical string fields and coerced
    types, each step applied only to the columns that are present. Every function
    here returns a fresh table; nothing is updated in place. */
module Cleaning {
  import opened Wrappers
  import opened Text
  import Dates
  import opened Tables

  // ---------------------------------------------------------------------------
  // Step 1: column names
  // ---------------------------------------------------------------------------

  /** A column name in canonical form: no surrounding whitespace, no upper-case
      letter, no space character. */
  predicate IsCanonicalName(s: string) {
    IsTrimmed(s) && NoUpper(s) && ' ' !in s
  }

  /** Strip, lower-case, then replace each space with an underscore. */
  function NormalizeColumnName(name: string): (r: string)
    ensures IsCanonicalName(r)
    ensures |r| == |Trim(name)|
  {
    var lowered := Lower(Trim(name));
    LowerKeepsTrimmed(Trim(name));
    ReplaceSpaces(lowered)
  }

  /** Canonical names are exactly the names the column step leaves alone. */
  lemma CanonicalNameFixed(s: string)
    ensures NormalizeColumnName(s) == s <==> IsCanonicalName(s)
  {
    if IsCanonicalName(s) {
      TrimOfTrimmed(s);
      LowerFixedPoints(s);
      assert forall k :: 0 <= k < |s| ==> ReplaceSpaces(s)[k] == s[k];
    }
  }

  lemma ColumnNameIdempotent(name: string)
    ensures NormalizeColumnName(NormalizeColumnName(name)) == NormalizeColumnName(name)
  {
    CanonicalNameFixed(NormalizeColumnName(name));
  }

  lemma PaddedColumnName(name: string, inner: string, lowered: string, result: string)
    requires name == " " + inner + " " && |inner| > 0 && IsTrimmed(inner)
    requires Lower(inner) == lowered && ReplaceSpaces(lowered) == result
    ensures NormalizeColumnName(name) == result
  {
    TrimPadded(inner);
  }

  lemma UserIdLowered()
    ensures Lower("User ID") == "user id"
  {
    var s, t := "User ID", "user id";
    forall k | 0 <= k < |s|
      ensures LowerChar(s[k]) == t[k]
    {
      if k == 0 {} else if k == 1 {} else if k == 2 {} else if k == 3 {}
      else if k == 4 {} else if k == 5 {} else {}
    }
    LowerIs(s, t);
  }

  lemma UserIdUnderscored()
    ensures ReplaceSpaces("user id") == "user_id"
  {
    var s, t := "user id", "user_id";
    forall k | 0 <= k < |s|
      ensures t[k] == (if s[k] == ' ' then '_' else s[k])
    {
      if k == 0 {} else if k == 1 {} else if k == 2 {} else if k == 3 {}
      else if k == 4 {} else if k == 5 {} else {}
    }
    ReplaceSpacesIs(s, t);
  }

  /** The header " User ID " becomes "user_id". */
  lemma UserIdHeaderExample()
    ensures NormalizeColumnName(" User ID ") == "user_id"
  {
    var inner := "User ID";
    assert " User ID " == " " + inner + " ";
    assert IsTrimmed(inner);
    UserIdLowered();
    UserIdUnderscored();
    PaddedColumnName(" User ID ", inner, "user id", "user_id");
  }

  function NormalizeColumns(t: Table): (r: Table)
    ensures r.rows == t.rows && |r.columns| == |t.columns|
    ensures forall j :: 0 <= j < |t.columns| ==> r.columns[j] == NormalizeColumnName(t.columns[j])
    ensures forall j :: 0 <= j < |r.columns| ==> IsCanonicalName(r.columns[j])
  {
    Table(seq(|t.columns|, j requires 0 <= j < |t.columns| => NormalizeColumnName(t.columns[j])), t.rows)
  }

  // ---------------------------------------------------------------------------
  // Column roles
  // ---------------------------------------------------------------------------

  /** What the normaliser does with a column, decided by its (canonical) name. */
  datatype Role = NameField | EmailField | CountryField | TierField | UserIdField | AgeField | SignupDateField | OtherField {
    /** `name`, `email`, `country`, `subscription_tier`: the string columns. */
    predicate IsString() { NameField? || EmailField? || CountryField? || TierField? }
    /** `user_id`, `age`: the numeric columns. */
    predicate IsNumeric() { UserIdField? || AgeField? }
  }

  /** The columns the cleaning rules name, with their roles. */
  const RoleTable: seq<(string, Role)> := [
    ("name", NameField), ("email", EmailField), ("country", CountryField),
    ("subscription_tier", TierField), ("user_id", UserIdField), ("age", AgeField),
    ("signup_date", SignupDateField)]

  function RoleIn(column: string, table: seq<(string, Role)>): Role {
    if |table| == 0 then OtherField
    else if table[0].0 == column then table[0].1
    else RoleIn(column, table[1..])
  }

  /** The role of a column, by its (normalised) name. */
  function RoleOf(column: string): Role {
    RoleIn(column, RoleTable)
  }

  /** The columns the rules name get their roles; every other name is left alone. */
  lemma RuleColumnRoles()
    ensures RoleOf("name") == NameField && RoleOf("email") == EmailField
    ensures RoleOf("country") == CountryField && RoleOf("subscription_tier") == TierField
    ensures RoleOf("user_id") == UserIdField && RoleOf("age") == AgeField
    ensures RoleOf("signup_date") == SignupDateField
  {
  }

  // ---------------------------------------------------------------------------
  // Step 2: string fields
  // ---------------------------------------------------------------------------

  /** The text rule of a string column: strip, then lower-case the email and the
      tier and capitalise the country; the name is only stripped. */
  function CleanText(role: Role, s: string): string
    requires role.IsString()
  {
    var t := Trim(s);
    if role == EmailField || role == TierField then Lower(t)
    else if role == CountryField then Capitalize(t)
    else t
  }

  /** The string rule for one cell of a column with role `role`: render with
      `astype(str)` (a missing value becomes the text "nan") and apply the text
      rule. Cells of the other columns are untouched. */
  function CleanString(role: Role, c: Cell): (r: Cell)
    ensures !role.IsString() ==> r == c
    ensures role.IsString() ==> r.Str? && IsCleanCell(role, r)
    ensures role.IsString() ==> |r.text| == |Trim(Render(c))| && Lower(r.text) == Lower(Trim(Render(c)))
    ensures role == NameField ==> r == Str(Trim(Render(c)))
  {
    if role.IsString() then
      CleanTextShape(role, Render(c));
      CleanTextKeepsLetters(role, Render(c));
      Str(CleanText(role, Render(c)))
    else c
  }

  /** The text rule yields stripped text, with no upper-case letter in the email
      and the tier and a capitalised country. */
  lemma CleanTextShape(role: Role, s: string)
    requires role.IsString()
    ensures IsCleanCell(role, Str(CleanText(role, s)))
  {
    var t := Trim(s);
    if role == EmailField || role == TierField {
      LowerKeepsTrimmed(t);
    } else if role == CountryField {
      CapitalizeKeepsTrimmed(t);
      CapitalizeFixedPoints(t);
    }
  }

  /** The text rule changes nothing but surrounding whitespace and letter case, and
      leaves the case of a name alone. */
  lemma CleanTextKeepsLetters(role: Role, s: string)
    requires role.IsString()
    ensures |CleanText(role, s)| == |Trim(s)|
    ensures Lower(CleanText(role, s)) == Lower(Trim(s))
    ensures role == NameField ==> CleanText(role, s) == Trim(s)
  {
    var t := Trim(s);
    if role == EmailField || role == TierField {
      LowerIdempotentText(t);
    } else if role == CountryField {
      LowerOfCapitalize(t);
    }
  }

  lemma LowerIdempotentText(s: string)
    ensures Lower(Lower(s)) == Lower(s)
  {
    LowerFixedPoints(Lower(s));
  }

  lemma LowerOfCapitalize(s: string)
    ensures Lower(Capitalize(s)) == Lower(s)
  {
    assert forall k :: 0 <= k < |s| ==> Lower(Capitalize(s))[k] == Lower(s)[k];
  }

  function StringRule(column: string, c: Cell): Cell {
    CleanString(RoleOf(column), c)
  }

  /** `_normalize_strings`: each string column present is rewritten cell by cell. */
  function NormalizeStrings(t: Table): (r: Table)
    requires t.WellFormed()
    ensures r.WellFormed() && r.columns == t.columns && |r.rows| == |t.rows|
    ensures forall i, j :: 0 <= i < |t.rows| && 0 <= j < |t.columns| ==> r.rows[i][j] == CleanString(RoleOf(t.columns[j]), t.rows[i][j])
  {
    MapCells(t, StringRule)
  }

  // ---------------------------------------------------------------------------
  // Step 3: types
  // ---------------------------------------------------------------------------

  /** `pd.to_numeric(..., errors="coerce")` on one cell, integers only: integer text
      becomes a number, anything else becomes missing. pandas also accepts
      surrounding spaces, decimals and exponents ("30.0", "1e3"); this model does not. */
  function ToNumeric(c: Cell): (r: Cell)
    ensures r.Num? || r.Null?
    ensures c.Num? || c.Null? ==> r == c
    ensures c.Str? ==> (r.Num? <==> ParseInt(c.text).Some?)
    ensures c.Str? && r.Num? ==> ParseInt(c.text) == Some(r.value)
  {
    match c
    case Num(_) => c
    case Str(s) => (match ParseInt(s) case Some(n) => Num(n) case None => Null)
    case _ => Null
  }

  /** `pd.to_datetime(..., errors="coerce")` on one cell: ISO date text becomes a
      timestamp, anything unparsable (the empty string included) becomes missing.
      A number also becomes missing here; pandas would read it as nanoseconds
      since 1970-01-01, which this model does not. */
  function ToDatetime(c: Cell): (r: Cell)
    ensures r.Stamp? || r.Null?
    ensures c.Stamp? || c.Null? ==> r == c
    ensures c.Str? ==> (r.Stamp? <==> Dates.ParseDate(c.text).Some?)
    ensures c.Str? && r.Stamp? ==> Dates.ParseDate(c.text) == Some(r.date)
    ensures c == Str("") ==> r == Null
  {
    match c
    case Stamp(_) => c
    case Str(s) => (match Dates.ParseDate(s) case Some(d) => Stamp(d) case None => Null)
    case _ => Null
  }

  function ConvertCell(role: Role, c: Cell): (r: Cell)
    ensures role.IsNumeric() ==> r.Num? || r.Null?
    ensures role == SignupDateField ==> r.Stamp? || r.Null?
    ensures !role.IsNumeric() && role != SignupDateField ==> r == c
  {
    if role.IsNumeric() then ToNumeric(c)
    else if role == SignupDateField then ToDatetime(c)
    else c
  }

  function TypeRule(column: string, c: Cell): Cell {
    ConvertCell(RoleOf(column), c)
  }

  /** `_convert_types`: each typed column present is coerced cell by cell. */
  function ConvertTypes(t: Table): (r: Table)
    requires t.WellFormed()
    ensures r.WellFormed() && r.columns == t.columns && |r.rows| == |t.rows|
    ensures forall i, j :: 0 <= i < |t.rows| && 0 <= j < |t.columns| ==> r.rows[i][j] == ConvertCell(RoleOf(t.columns[j]), t.rows[i][j])
  {
    MapCells(t, TypeRule)
  }

  // ---------------------------------------------------------------------------
  // The whole normaliser
  // ---------------------------------------------------------------------------

  /** The shape a cell of a column with role `role` has after normalisation. */
  predicate IsCleanCell(role: Role, c: Cell) {
    match role
    case NameField => c.Str? && IsTrimmed(c.text)
    case EmailField => c.Str? && IsTrimmed(c.text) && NoUpper(c.text)
    case TierField => c.Str? && IsTrimmed(c.text) && NoUpper(c.text)
    case CountryField => c.Str? && IsTrimmed(c.text) && IsCapitalized(c.text)
    case UserIdField => c.Num? || c.Null?
    case AgeField => c.Num? || c.Null?
    case SignupDateField => c.Stamp? || c.Null?
    case OtherField => true
  }

  /** A normalised table: rectangular, canonical names, every cell in clean shape. */
  predicate IsNormalized(t: Table) {
    && t.WellFormed()
    && (forall j :: 0 <= j < |t.columns| ==> IsCanonicalName(t.columns[j]))
    && (forall i, j :: 0 <= i < |t.rows| && 0 <= j < |t.columns| ==> IsCleanCell(RoleOf(t.columns[j]), t.rows[i][j]))
  }

  /** What normalisation does to one cell of a column with role `role`. */
  function NormalizeCell(role: Role, c: Cell): (r: Cell)
    ensures IsCleanCell(role, r)
    ensures role == OtherField ==> r == c
  {
    ConvertCell(role, CleanString(role, c))
  }

  /** The type step leaves string columns alone. */
  lemma StringCellUnconverted(role: Role, c: Cell)
    requires role.IsString()
    ensures NormalizeCell(role, c) == CleanString(role, c)
  {
  }

  /** The three steps compose cell by cell: each cell of the result is the cell
      rule of its (renamed) column applied to the input cell. */
  lemma StepsComposeByCell(t: Table)
    requires t.WellFormed()
    ensures var r := ConvertTypes(NormalizeStrings(NormalizeColumns(t)));
      forall i, j :: 0 <= i < |t.rows| && 0 <= j < |t.columns| ==>
        r.rows[i][j] == NormalizeCell(RoleOf(r.columns[j]), t.rows[i][j])
  {
    var named := NormalizeColumns(t);
    var cleaned := NormalizeStrings(named);
    var r := ConvertTypes(cleaned);
    forall i, j | 0 <= i < |t.rows| && 0 <= j < |t.columns|
      ensures r.rows[i][j] == NormalizeCell(RoleOf(r.columns[j]), t.rows[i][j])
    {
      var role := RoleOf(named.columns[j]);
      assert cleaned.rows[i][j] == CleanString(role, t.rows[i][j]);
      assert r.rows[i][j] == ConvertCell(role, cleaned.rows[i][j]);
    }
  }

  /** The three steps of `normalize_dataframe`: column names, then string fields,
      then types. The result has the same rows in the same order, each in clean
      shape, and every column no rule names keeps its values. When two columns are
      renamed to the same rule column pandas raises instead (`NormalizeDataframe`). */
  function Normalize(t: Table): (r: Table)
    requires t.WellFormed()
    ensures |r.rows| == |t.rows| && |r.columns| == |t.columns| && r.WellFormed()
    ensures forall j :: 0 <= j < |t.columns| ==> r.columns[j] == NormalizeColumnName(t.columns[j])
    ensures forall i, j :: 0 <= i < |t.rows| && 0 <= j < |t.columns| ==> r.rows[i][j] == NormalizeCell(RoleOf(r.columns[j]), t.rows[i][j])
    ensures forall i, j :: 0 <= i < |t.rows| && 0 <= j < |t.columns| && RoleOf(r.columns[j]) == OtherField ==> r.rows[i][j] == t.rows[i][j]
    ensures IsNormalized(r)
  {
    StepsComposeByCell(t);
    ConvertTypes(NormalizeStrings(NormalizeColumns(t)))
  }

  /** Two columns of the header share a name that a rule reads. pandas then hands
      the rule a two-column frame instead of a column, and the rule raises: `.str`
      does not exist on a frame, and `to_numeric` and `to_datetime` reject one. */
  predicate RepeatsRuleColumn(columns: seq<string>) {
    exists a, b :: 0 <= a < b < |columns| && columns[a] == columns[b] && RoleOf(columns[a]) != OtherField
  }

  /** `normalize_dataframe` with its failure: nothing when the renamed header repeats
      a rule column (for instance "Email" next to " email"), the normalised table
      otherwise. In a result every column a rule reads occurs once. */
  function NormalizeDataframe(t: Table): (r: Option<Table>)
    requires t.WellFormed()
    ensures r.None? <==> RepeatsRuleColumn(NormalizeColumns(t).columns)
    ensures r.Some? ==> r.value == Normalize(t) && !RepeatsRuleColumn(r.value.columns)
  {
    if RepeatsRuleColumn(NormalizeColumns(t).columns) then None else Some(Normalize(t))
  }

  /** A header holding a rule column's name both bare and padded with spaces makes
      normalisation fail, whatever the rows. */
  lemma PaddedDuplicateFails(t: Table, name: string)
    requires t.WellFormed() && |name| > 0 && IsCanonicalName(name) && RoleOf(name) != OtherField
    requires |t.columns| == 2 && t.columns[0] == name && t.columns[1] == " " + name + " "
    ensures NormalizeDataframe(t) == None
  {
    var named := NormalizeColumns(t).columns;
    CanonicalNameFixed(name);
    TrimPadded(name);
    assert named[0] == name && named[1] == name;
  }

  /** Two rectangular tables with the same header and the same cells are equal. */
  lemma TablesEqual(a: Table, b: Table)
    requires a.WellFormed() && b.WellFormed()
    requires a.columns == b.columns && |a.rows| == |b.rows|
    requires forall i, j :: 0 <= i < |a.rows| && 0 <= j < |a.columns| ==> a.rows[i][j] == b.rows[i][j]
    ensures a == b
  {
    forall i | 0 <= i < |a.rows|
      ensures a.rows[i] == b.rows[i]
    {
      assert forall j :: 0 <= j < |a.columns| ==> a.rows[i][j] == b.rows[i][j];
    }
  }

  /** The text rule fixes text already in its column's clean shape. */
  lemma CleanTextFixed(role: Role, s: string)
    requires role.IsString() && IsCleanCell(role, Str(s))
    ensures CleanText(role, s) == s
  {
    TrimOfTrimmed(s);
    if role == EmailField || role == TierField {
      LowerFixedPoints(s);
    } else if role == CountryField {
      CapitalizeFixedPoints(s);
    }
  }

  lemma CleanStringFixed(role: Role, c: Cell)
    requires IsCleanCell(role, c)
    ensures CleanString(role, c) == c
  {
    if role.IsString() {
      CleanTextFixed(role, c.text);
    }
  }

  lemma ConvertCellFixed(role: Role, c: Cell)
    requires IsCleanCell(role, c)
    ensures ConvertCell(role, c) == c
  {
  }

  /** A clean cell is left as it is by the cell rules. */
  lemma CleanCellFixed(role: Role, c: Cell)
    requires IsCleanCell(role, c)
    ensures NormalizeCell(role, c) == c
  {
    CleanStringFixed(role, c);
    ConvertCellFixed(role, c);
  }

  /** Normalisation leaves an already normalised table unchanged. */
  lemma NormalizeFixesNormalized(t: Table)
    requires IsNormalized(t)
    ensures Normalize(t) == t
  {
    var r := Normalize(t);
    forall j | 0 <= j < |t.columns|
      ensures r.columns[j] == t.columns[j]
    {
      CanonicalNameFixed(t.columns[j]);
    }
    forall i, j | 0 <= i < |t.rows| && 0 <= j < |t.columns|
      ensures r.rows[i][j] == t.rows[i][j]
    {
      CleanCellFixed(RoleOf(t.columns[j]), t.rows[i][j]);
    }
    TablesEqual(r, t);
  }

  /** Normalising twice gives what normalising once gives. */
  lemma NormalizeIdempotent(t: Table)
    requires t.WellFormed()
    ensures Normalize(Normalize(t)) == Normalize(t)
  {
    NormalizeFixesNormalized(Normalize(t));
  }

  /** What normalisation returns normalises again to itself. */
  lemma NormalizeDataframeIdempotent(t: Table)
    requires t.WellFormed() && NormalizeDataframe(t).Some?
    ensures NormalizeDataframe(NormalizeDataframe(t).value) == NormalizeDataframe(t)
  {
    var df := NormalizeDataframe(t).value;
    NormalizeFixesNormalized(df);
    assert NormalizeColumns(df).columns == df.columns;
  }

  /** The string step alone is idempotent: strip, lower-case and capitalise are. */
  lemma NormalizeStringsIdempotent(t: Table)
    requires t.WellFormed()
    ensures NormalizeStrings(NormalizeStrings(t)) == NormalizeStrings(t)
  {
    var once := NormalizeStrings(t);
    var twice := NormalizeStrings(once);
    forall i, j | 0 <= i < |t.rows| && 0 <= j < |t.columns|
      ensures twice.rows[i][j] == once.rows[i][j]
    {
      var role, c := RoleOf(t.columns[j]), once.rows[i][j];
      if role.IsString() {
        CleanStringFixed(role, c);
      }
    }
    TablesEqual(twice, once);
  }

  /** A missing value in a string column becomes the text "nan", not a missing
      value; in the country column it becomes "Nan". */
  lemma MissingStringBecomesNan(role: Role)
    requires role.IsString()
    ensures role != CountryField ==> CleanString(role, Null) == Str("nan")
    ensures role == CountryField ==> CleanString(role, Null) == Str("Nan")
  {
    var nan := "nan";
    assert IsTrimmed(nan) && NoUpper(nan);
    if role == CountryField {
      var cap := "Nan";
      forall k | 1 <= k < |nan|
        ensures LowerChar(nan[k]) == cap[k]
      {
        if k == 1 {} else {}
      }
      CapitalizeIs(nan, cap);
      CapitalizedIs(nan, cap);
    } else {
      CleanTextFixed(role, nan);
    }
  }

  /** A missing email, name or tier ends normalisation as the text "nan". */
  lemma MissingTextIsNan(role: Role)
    requires role.IsString() && role != CountryField
    ensures NormalizeCell(role, Null) == Str("nan")
  {
    MissingStringBecomesNan(role);
    StringCellUnconverted(role, Null);
  }

  lemma CapitalizedIs(s: string, t: string)
    requires IsTrimmed(s) && Capitalize(s) == t
    ensures CleanText(CountryField, s) == t
  {
    TrimOfTrimmed(s);
  }

  /** "brazil" and "bRAZIL" are both capitalised to "Brazil". */
  lemma BrazilCapitalized(s: string)
    requires s == "brazil" || s == "bRAZIL"
    ensures CleanString(CountryField, Str(s)) == Str("Brazil")
  {
    var t := "Brazil";
    forall k | 1 <= k < |s|
      ensures LowerChar(s[k]) == t[k]
    {
      if k == 1 {} else if k == 2 {} else if k == 3 {} else if k == 4 {} else {}
    }
    CapitalizeIs(s, t);
    assert IsTrimmed(s);
    CapitalizedIs(s, t);
  }

  /** Country capitalisation upper-cases the first letter and lower-cases the rest:
      "brazil" and "bRAZIL" both become "Brazil". */
  lemma CountryExamples()
    ensures CleanString(CountryField, Str("brazil")) == Str("Brazil")
    ensures CleanString(CountryField, Str("bRAZIL")) == Str("Brazil")
  {
    BrazilCapitalized("brazil");
    BrazilCapitalized("bRAZIL");
  }
}

=== FILE: dates.dfy ===
/** Calendar dates as `pd.to_datetime(..., errors="coerce")` produces them from
    ISO `YYYY-MM-DD` text. Only that one text form is parsed here, cell by cell;
    pandas also infers other formats, one per column. */
module Dates {
  import opened Wrappers
  import opened Text

  datatype Date = Date(year: int, month: int, day: int)

  predicate IsLeapYear(y: int) {
    y % 4 == 0 && (y % 100 != 0 || y % 400 == 0)
  }

  function DaysInMonth(y: int, m: int): int
    requires 1 <= m <= 12
  {
    if m == 2 then (if IsLeapYear(y) then 29 else 28)
    else if m == 4 || m == 6 || m == 9 || m == 11 then 30
    else 31
  }

  predicate IsCalendarDate(d: Date) {
    1 <= d.month <= 12 && 1 <= d.day <= DaysInMonth(d.year, d.month)
  }

  /** Chronological order on dates, field by field. */
  predicate NotAfter(a: Date, b: Date) {
    || a.year < b.year
    || (a.year == b.year && a.month < b.month)
    || (a.year == b.year && a.month == b.month && a.day <= b.day)
  }

  /** pandas' nanosecond timestamps span 1677-09-21 00:12:43.145224193 to
      2262-04-11 23:47:16.854775807, so the midnight of a date is representable
      from 1677-09-22 to 2262-04-11; any other date coerces to NaT. */
  const FirstTimestampDate := Date(1677, 9, 22)
  const LastTimestampDate := Date(2262, 4, 11)

  predicate IsTimestampDate(d: Date) {
    IsCalendarDate(d) && NotAfter(FirstTimestampDate, d) && NotAfter(d, LastTimestampDate)
  }

  /** The dates a pandas timestamp cell can hold. */
  type Timestamp = d: Date | IsTimestampDate(d) witness Date(2000, 1, 1)

  /** `n` written with exactly `width` digits, zero-padded on the left. */
  function Padded(n: nat, width: nat): (r: string)
    ensures |r| == width && AllDigits(r)
  {
    if width == 0 then "" else Padded(n / 10, width - 1) + [DigitChar(n % 10)]
  }

  function Pow10(k: nat): (p: nat)
    ensures p >= 1
  {
    if k == 0 then 1 else 10 * Pow10(k - 1)
  }

  lemma {:induction false} PaddedValue(n: nat, width: nat)
    requires n < Pow10(width)
    ensures DigitsValue(Padded(n, width)) == n
  {
    if width > 0 {
      var r := Padded(n, width);
      assert r[..width - 1] == Padded(n / 10, width - 1);
      PaddedValue(n / 10, width - 1);
    }
  }

  /** ISO rendering `YYYY-MM-DD` of a date, as pandas prints a midnight timestamp column. */
  function DateText(d: Timestamp): (r: string)
    ensures |r| == 10 && r[4] == '-' && r[7] == '-'
  {
    Padded(d.year, 4) + "-" + Padded(d.month, 2) + "-" + Padded(d.day, 2)
  }

  /** Coercion of text to a date: `Some` exactly for `YYYY-MM-DD` text naming a real
      calendar day inside the timestamp range; `None` (pandas' NaT) otherwise. */
  function ParseDate(s: string): (r: Option<Timestamp>)
    ensures r.Some? ==> |s| == 10 && s[4] == '-' && s[7] == '-'
  {
    if |s| == 10 && s[4] == '-' && s[7] == '-'
       && AllDigits(s[..4]) && AllDigits(s[5..7]) && AllDigits(s[8..])
    then
      var d := Date(DigitsValue(s[..4]), DigitsValue(s[5..7]), DigitsValue(s[8..]));
      if IsTimestampDate(d) then Some(d) else None
    else None
  }

  /** Parsing the rendering of a representable date gives the date back. */
  lemma DateTextRoundTrip(d: Timestamp)
    ensures ParseDate(DateText(d)) == Some(d)
  {
    var s := DateText(d);
    assert s[..4] == Padded(d.year, 4);
    assert s[5..7] == Padded(d.month, 2);
    assert s[8..] == Padded(d.day, 2);
    PaddedValue(d.year, 4);
    PaddedValue(d.month, 2);
    PaddedValue(d.day, 2);
  }

  lemma {:induction false} PaddedOfDigits(x: string)
    requires AllDigits(x)
    ensures Padded(DigitsValue(x), |x|) == x
  {
    if |x| > 0 {
      var init := x[..|x| - 1];
      var v := DigitsValue(x);
      assert v / 10 == DigitsValue(init) && v % 10 == DigitValue(x[|x| - 1]);
      PaddedOfDigits(init);
      assert DigitChar(DigitValue(x[|x| - 1])) == x[|x| - 1];
      assert x == init + [x[|x| - 1]];
    }
  }

  /** Every text that parses is the canonical rendering of its date: parsing is injective. */
  lemma ParsedDateRendersBack(s: string)
    requires ParseDate(s).Some?
    ensures DateText(ParseDate(s).value) == s
  {
    PaddedOfDigits(s[..4]);
    PaddedOfDigits(s[5..7]);
    PaddedOfDigits(s[8..]);
    assert s == s[..4] + "-" + s[5..7] + "-" + s[8..];
  }

  /** The empty string is not a date. */
  lemma EmptyIsNotADate()
    ensures ParseDate("") == None
  {
  }

  lemma IsoDateParses()
    ensures ParseDate("2024-01-01") == Some(Date(2024, 1, 1))
  {
    var s := "2024-01-01";
    assert s[..4] == "2024" && s[5..7] == "01" && s[8..] == "01";
    assert DigitsValue("2024") == 2024 by {
      assert "2024"[..3] == "202" && "202"[..2] == "20" && "20"[..1] == "2" && "2"[..0] == "";
    }
    assert DigitsValue("01") == 1 by {
      assert "01"[..1] == "0" && "0"[..0] == "";
    }
  }

  /** A day that does not exist in the calendar never parses, e.g. 30 February. */
  lemma NoThirtiethOfFebruary()
    ensures ParseDate("2023-02-30") == None
  {
    var s := "2023-02-30";
    assert s[..4] == "2023" && s[5..7] == "02" && s[8..] == "30";
    assert DigitsValue("02") == 2 by {
      assert "02"[..1] == "0" && "0"[..0] == "";
    }
    assert DigitsValue("30") == 30 by {
      assert "30"[..1] == "3" && "3"[..0] == "";
    }
  }
}

=== FILE: dedup.dfy ===
/** `drop_duplicates(subset=[key])`: of the rows sharing a key value only the first
    is kept, and the kept rows stay in their original order. Key cells compare as
    values, so two missing keys count as equal, as they do in pandas. */
module Dedup {
  import opened Tables
  import opened Masks

  /** Every row is wide enough to have a cell at position `k`. */
  predicate HasKeyColumn(rows: seq<Row>, k: nat) {
    forall i :: 0 <= i < |rows| ==> k < |rows[i]|
  }

  /** The key values that occur in `rows`. */
  function Keys(rows: seq<Row>, k: nat): set<Cell>
    requires HasKeyColumn(rows, k)
  {
    set i | 0 <= i < |rows| :: rows[i][k]
  }

  /** No two rows share a key value. */
  predicate DistinctKeys(rows: seq<Row>, k: nat)
    requires HasKeyColumn(rows, k)
  {
    forall a, b :: 0 <= a < b < |rows| ==> rows[a][k] != rows[b][k]
  }

  /** Every row of `rows` that is the first with its key value is in `r`. */
  predicate KeepsFirsts(rows: seq<Row>, r: seq<Row>, k: nat)
    requires HasKeyColumn(rows, k)
  {
    forall i :: 0 <= i < |rows| && rows[i][k] !in Keys(rows[..i], k) ==> rows[i] in r
  }

  /** `duplicated(subset=[key])`: row `i` repeats a key some earlier row already has. */
  function Duplicated(rows: seq<Row>, k: nat): (m: seq<bool>)
    requires HasKeyColumn(rows, k)
    ensures |m| == |rows|
    ensures forall i :: 0 <= i < |rows| ==> (m[i] <==> exists j :: 0 <= j < i && rows[j][k] == rows[i][k])
  {
    seq(|rows|, i requires 0 <= i < |rows| => rows[i][k] in Keys(rows[..i], k))
  }

  /** The rows that are the first with their key value, in order: the selection by
      the negated `duplicated` mask. */
  function FirstOccurrences(rows: seq<Row>, k: nat): (r: seq<Row>)
    requires HasKeyColumn(rows, k)
    ensures |r| <= |rows|
  {
    Select(rows, Not(Duplicated(rows, k)))
  }

  /** `drop_duplicates(subset=[key])`: the kept rows come from the input, have
      pairwise distinct keys and between them every key of the input, and every
      row that is the first with its key is among them. */
  function DropDuplicates(rows: seq<Row>, k: nat): (r: seq<Row>)
    requires HasKeyColumn(rows, k)
    ensures |r| <= |rows|
    ensures forall y :: y in r ==> y in rows
    ensures HasKeyColumn(r, k) && DistinctKeys(r, k) && Keys(r, k) == Keys(rows, k)
    ensures forall i :: 0 <= i < |rows| && rows[i][k] !in Keys(rows[..i], k) ==> rows[i] in r
  {
    FirstOccurrencesKeys(rows, k);
    FirstOccurrencesKept(rows, k);
    SelectedFrom(rows, Not(Duplicated(rows, k)));
    FirstOccurrences(rows, k)
  }

  lemma KeysSnoc(rows: seq<Row>, k: nat)
    requires |rows| > 0 && HasKeyColumn(rows, k)
    ensures Keys(rows, k) == Keys(rows[..|rows| - 1], k) + {rows[|rows| - 1][k]}
  {
    var n := |rows| - 1;
    forall c | c in Keys(rows, k)
      ensures c in Keys(rows[..n], k) + {rows[n][k]}
    {
      var i :| 0 <= i < |rows| && rows[i][k] == c;
      if i < n {
        assert rows[..n][i] == rows[i];
      }
    }
  }

  /** Appending a row keeps it exactly when its key is new. */
  lemma FirstOccurrencesSnoc(rows: seq<Row>, k: nat)
    requires |rows| > 0 && HasKeyColumn(rows, k)
    ensures var n := |rows| - 1;
      FirstOccurrences(rows, k) == FirstOccurrences(rows[..n], k) + (if rows[n][k] in Keys(rows[..n], k) then [] else [rows[n]])
  {
    var n := |rows| - 1;
    var m := Not(Duplicated(rows, k));
    assert m[..n] == Not(Duplicated(rows[..n], k)) by {
      forall i | 0 <= i < n
        ensures m[i] == Not(Duplicated(rows[..n], k))[i]
      {
        assert rows[..n][..i] == rows[..i];
      }
    }
  }

  /** A row with a new key extends a duplicate-free sequence to a duplicate-free one. */
  lemma AppendNewKey(rows: seq<Row>, row: Row, k: nat)
    requires HasKeyColumn(rows, k) && DistinctKeys(rows, k) && k < |row| && row[k] !in Keys(rows, k)
    ensures HasKeyColumn(rows + [row], k) && DistinctKeys(rows + [row], k)
    ensures Keys(rows + [row], k) == Keys(rows, k) + {row[k]}
  {
    var r := rows + [row];
    assert r[..|rows|] == rows;
    KeysSnoc(r, k);
    forall a, b | 0 <= a < b < |r|
      ensures r[a][k] != r[b][k]
    {
      assert r[a] == rows[a];
      if b < |rows| {
        assert r[b] == rows[b];
      }
    }
  }

  /** The first occurrences have pairwise distinct keys and between them every key
      of the input. */
  lemma {:induction false} FirstOccurrencesKeys(rows: seq<Row>, k: nat)
    requires HasKeyColumn(rows, k)
    ensures HasKeyColumn(FirstOccurrences(rows, k), k)
    ensures DistinctKeys(FirstOccurrences(rows, k), k)
    ensures Keys(FirstOccurrences(rows, k), k) == Keys(rows, k)
    decreases |rows|
  {
    if |rows| > 0 {
      var n := |rows| - 1;
      var r' := FirstOccurrences(rows[..n], k);
      FirstOccurrencesSnoc(rows, k);
      FirstOccurrencesKeys(rows[..n], k);
      KeysSnoc(rows, k);
      var r := FirstOccurrences(rows, k);
      if rows[n][k] in Keys(rows[..n], k) {
        assert r == r';
      } else {
        assert r == r' + [rows[n]];
        AppendNewKey(r', rows[n], k);
      }
    } else {
      assert FirstOccurrences(rows, k) == [];
    }
  }

  /** Every row that is the first with its key is selected. */
  lemma FirstOccurrencesKept(rows: seq<Row>, k: nat)
    requires HasKeyColumn(rows, k)
    ensures forall i :: 0 <= i < |rows| && rows[i][k] !in Keys(rows[..i], k) ==> rows[i] in FirstOccurrences(rows, k)
  {
    var m := Duplicated(rows, k);
    forall i | 0 <= i < |rows| && rows[i][k] !in Keys(rows[..i], k)
      ensures rows[i] in FirstOccurrences(rows, k)
    {
      SelectKeeps(rows, Not(m), i);
    }
  }

  /** The kept rows and the dropped rows interleave to the input: no reordering. */
  lemma DropDuplicatesKeepsOrder(rows: seq<Row>, k: nat)
    requires HasKeyColumn(rows, k)
    ensures IsMerge(rows, DropDuplicates(rows, k), Select(rows, Duplicated(rows, k)))
  {
    var m := Duplicated(rows, k);
    SelectSplits(rows, Not(m));
    assert Not(Not(m)) == m;
  }

  /** As many rows survive as there are distinct keys. */
  lemma {:induction false} DistinctKeysCount(rows: seq<Row>, k: nat)
    requires HasKeyColumn(rows, k) && DistinctKeys(rows, k)
    ensures |Keys(rows, k)| == |rows|
    decreases |rows|
  {
    if |rows| > 0 {
      var n := |rows| - 1;
      KeysSnoc(rows, k);
      DistinctKeysCount(rows[..n], k);
      assert rows[n][k] !in Keys(rows[..n], k);
    }
  }

  lemma DropDuplicatesCount(rows: seq<Row>, k: nat)
    requires HasKeyColumn(rows, k)
    ensures |DropDuplicates(rows, k)| == |Keys(rows, k)|
  {
    DistinctKeysCount(DropDuplicates(rows, k), k);
  }

  /** Rows whose keys are already distinct come through unchanged. */
  lemma DistinctKeysUnchanged(rows: seq<Row>, k: nat)
    requires HasKeyColumn(rows, k) && DistinctKeys(rows, k)
    ensures DropDuplicates(rows, k) == rows
  {
    DistinctFirstOccurrences(rows, k);
  }

  lemma {:induction false} DistinctFirstOccurrences(rows: seq<Row>, k: nat)
    requires HasKeyColumn(rows, k) && DistinctKeys(rows, k)
    ensures FirstOccurrences(rows, k) == rows
    decreases |rows|
  {
    if |rows| > 0 {
      var n := |rows| - 1;
      var init := rows[..n];
      DistinctInit(rows, k);
      FirstOccurrencesSnoc(rows, k);
      assert FirstOccurrences(rows, k) == FirstOccurrences(init, k) + [rows[n]];
      DistinctFirstOccurrences(init, k);
      assert init + [rows[n]] == rows;
    }
  }

  /** Dropping the last row of a duplicate-free sequence leaves one, without the
      last row's key. */
  lemma DistinctInit(rows: seq<Row>, k: nat)
    requires |rows| > 0 && HasKeyColumn(rows, k) && DistinctKeys(rows, k)
    ensures HasKeyColumn(rows[..|rows| - 1], k) && DistinctKeys(rows[..|rows| - 1], k)
    ensures rows[|rows| - 1][k] !in Keys(rows[..|rows| - 1], k)
  {
    var n := |rows| - 1;
    var init := rows[..n];
    forall a, b | 0 <= a < b < n
      ensures init[a][k] != init[b][k]
    {
      assert init[a] == rows[a] && init[b] == rows[b];
    }
    forall i | 0 <= i < n
      ensures init[i][k] != rows[n][k]
    {
      assert init[i] == rows[i];
    }
  }

  /** Deduplicating twice changes nothing more. */
  lemma DropDuplicatesIdempotent(rows: seq<Row>, k: nat)
    requires HasKeyColumn(rows, k)
    ensures HasKeyColumn(DropDuplicates(rows, k), k)
    ensures DropDuplicates(DropDuplicates(rows, k), k) == DropDuplicates(rows, k)
  {
    DistinctKeysUnchanged(DropDuplicates(rows, k), k);
  }

  /** One pass with a set of keys seen so far, as a hash-based implementation runs. */
  method DropDuplicateKeys(rows: seq<Row>, k: nat) returns (kept: seq<Row>)
    requires HasKeyColumn(rows, k)
    ensures kept == DropDuplicates(rows, k)
  {
    var seen: set<Cell> := {};
    kept := [];
    for i := 0 to |rows|
      invariant seen == Keys(rows[..i], k)
      invariant kept == FirstOccurrences(rows[..i], k)
    {
      var prefix := rows[..i + 1];
      assert prefix[..i] == rows[..i];
      FirstOccurrencesSnoc(prefix, k);
      KeysSnoc(prefix, k);
      if rows[i][k] !in seen {
        kept := kept + [rows[i]];
        seen := seen + {rows[i][k]};
      }
    }
    assert rows[..|rows|] == rows;
  }
}

=== FILE: email.dfy ===
/** The email pattern `^[\w.-]+@[\w.-]+\.\w+$` as Python's `re.match` applies it.
    `\w` is taken as ASCII letters, digits and `_`; for `str` patterns Python's `\w`
    also matches every Unicode letter and digit, which this model does not. */
module EmailPattern {
  import opened Wrappers

  /** `\w`, ASCII only. */
  predicate IsWordChar(c: char) {
    'a' <= c <= 'z' || 'A' <= c <= 'Z' || '0' <= c <= '9' || c == '_'
  }

  /** `[\w.-]`. */
  predicate IsPartChar(c: char) {
    IsWordChar(c) || c == '.' || c == '-'
  }

  predicate AllWord(s: string) {
    forall k :: 0 <= k < |s| ==> IsWordChar(s[k])
  }

  predicate AllPart(s: string) {
    forall k :: 0 <= k < |s| ==> IsPartChar(s[k])
  }

  /** Reference reading of `[\w.-]+@[\w.-]+\.\w+` against the whole of `s`: some `@`
      and some later `.` cut `s` into a non-empty local part, a non-empty domain
      part and a non-empty word-character suffix. */
  ghost predicate IsFullMatch(s: string) {
    exists at, dot ::
      && 0 < at && at + 1 < dot && dot + 1 < |s|
      && s[at] == '@' && s[dot] == '.'
      && AllPart(s[..at]) && AllPart(s[at + 1..dot]) && AllWord(s[dot + 1..])
  }

  /** Position of the first `c` in `s`. */
  function FirstIndex(s: string, c: char): (r: Option<nat>)
    ensures r.None? <==> c !in s
    ensures r.Some? ==> r.value < |s| && s[r.value] == c && c !in s[..r.value]
  {
    if |s| == 0 then None
    else if s[0] == c then Some(0)
    else
      match FirstIndex(s[1..], c)
      case None => None
      case Some(i) =>
        assert s[..i + 1] == [s[0]] + s[1..][..i];
        Some(i + 1)
  }

  /** Position of the last `c` in `s`. */
  function LastIndex(s: string, c: char): (r: Option<nat>)
    ensures r.None? <==> c !in s
    ensures r.Some? ==> r.value < |s| && s[r.value] == c && c !in s[r.value + 1..]
  {
    if |s| == 0 then None
    else if s[|s| - 1] == c then Some(|s| - 1)
    else
      var init := s[..|s| - 1];
      match LastIndex(init, c)
      case None =>
        assert s == init + [s[|s| - 1]];
        None
      case Some(i) =>
        assert s[i + 1..] == init[i + 1..] + [s[|s| - 1]];
        Some(i)
  }

  /** The matcher: the `@` must be the first one (no part character is `@`), and the
      `.` before the top-level segment must be the last one (no word character is `.`). */
  function FullMatch(s: string): bool {
    match FirstIndex(s, '@')
    case None => false
    case Some(at) =>
      var rest := s[at + 1..];
      && at > 0 && AllPart(s[..at]) && AllPart(rest)
      && match LastIndex(rest, '.')
         case None => false
         case Some(d) => d > 0 && d + 1 < |rest| && AllWord(rest[d + 1..])
  }

  /** `re.match(EMAIL_REGEX, s)`: `^` anchors at the start, and `$` matches at the end
      of the text or just before a newline that ends it. So `s` matches exactly when
      it, or `s` without one final newline, splits as the pattern reads. */
  function Matches(s: string): (b: bool)
    ensures b <==> IsFullMatch(s) || (|s| > 0 && s[|s| - 1] == '\n' && IsFullMatch(s[..|s| - 1]))
  {
    FullMatchCorrect(s);
    if |s| > 0 && s[|s| - 1] == '\n' then
      FullMatchCorrect(s[..|s| - 1]);
      FullMatch(s) || FullMatch(s[..|s| - 1])
    else
      FullMatch(s)
  }

  lemma FullMatchSound(s: string)
    requires FullMatch(s)
    ensures IsFullMatch(s)
  {
    var at := FirstIndex(s, '@').value;
    var rest := s[at + 1..];
    var d := LastIndex(rest, '.').value;
    var dot := at + 1 + d;
    var domain := s[at + 1..dot];
    assert domain == rest[..d];
    assert AllPart(domain) by {
      assert forall k :: 0 <= k < |domain| ==> domain[k] == rest[k];
    }
    assert s[dot + 1..] == rest[d + 1..];
    assert && 0 < at && at + 1 < dot && dot + 1 < |s|
      && s[at] == '@' && s[dot] == '.'
      && AllPart(s[..at]) && AllPart(s[at + 1..dot]) && AllWord(s[dot + 1..]);
  }

  lemma FullMatchComplete(s: string, at: int, dot: int)
    requires 0 < at && at + 1 < dot && dot + 1 < |s|
    requires s[at] == '@' && s[dot] == '.'
    requires AllPart(s[..at]) && AllPart(s[at + 1..dot]) && AllWord(s[dot + 1..])
    ensures FullMatch(s)
  {
    assert '@' !in s[..at] by {
      assert forall k :: 0 <= k < at ==> IsPartChar(s[..at][k]);
    }
    var first := FirstIndex(s, '@');
    assert first == Some(at);
    var rest := s[at + 1..];
    var d := dot - at - 1;
    assert rest[d] == '.';
    assert rest[d + 1..] == s[dot + 1..];
    var tail := rest[d + 1..];
    assert '.' !in tail by {
      assert forall k :: 0 <= k < |tail| ==> IsWordChar(tail[k]);
    }
    var last := LastIndex(rest, '.');
    assert last == Some(d);
    assert AllPart(rest) by {
      forall k | 0 <= k < |rest|
        ensures IsPartChar(rest[k])
      {
        if k < d {
          assert rest[k] == s[at + 1..dot][k];
        } else if k > d {
          assert rest[k] == s[dot + 1..][k - d - 1];
        }
      }
    }
  }

  /** The matcher agrees with the reference reading of the pattern on every text. */
  lemma FullMatchCorrect(s: string)
    ensures FullMatch(s) <==> IsFullMatch(s)
  {
    if FullMatch(s) {
      FullMatchSound(s);
    }
    if IsFullMatch(s) {
      var at, dot :| && 0 < at && at + 1 < dot && dot + 1 < |s|
        && s[at] == '@' && s[dot] == '.'
        && AllPart(s[..at]) && AllPart(s[at + 1..dot]) && AllWord(s[dot + 1..]);
      FullMatchComplete(s, at, dot);
    }
  }

  /** Text without an `@` never matches, "not-an-email" among it. */
  lemma NoAtNoMatch(s: string)
    requires '@' !in s
    ensures !Matches(s)
  {
    if |s| > 0 {
      assert '@' !in s[..|s| - 1] by {
        assert forall k :: 0 <= k < |s| - 1 ==> s[..|s| - 1][k] == s[k];
      }
    }
  }

  lemma NotAnEmailRejected()
    ensures !Matches("not-an-email")
  {
    NoAtNoMatch("not-an-email");
  }

  lemma SimpleAddressAccepted()
    ensures Matches("a@x.com")
  {
    var s := "a@x.com";
    FullMatchComplete(s, 1, 3);
  }
}

=== FILE: runner.dfy ===
/** The run of one input file against an object store: download, fingerprint,
    skip if already processed, parse, normalise, validate, deduplicate, upload.
    The object store is a map from keys to bytes; the content fingerprint, the CSV
    reader and the CSV writer are parameters, since their internals are not part
    of this model. */
module Runner {
  import opened Wrappers
  import opened Tables
  import opened Masks
  import Cleaning
  import Validation
  import Dedup

  newtype byte = x: int | 0 <= x < 256

  /** One bucket: object key to object content. */
  type Store = map<string, seq<byte>>

  /** The collaborators the run calls but this model does not define: the content
      hash, `pd.read_csv` (None when the bytes are not a readable CSV) and
      `DataFrame.to_csv(index=False)`. */
  datatype Env = Env(
    fingerprint: seq<byte> -> string,
    parse: seq<byte> -> Option<ParsedTable>,
    toCsv: Table -> seq<byte>)

  /** One upload: the table written under the key. */
  datatype Write = Write(key: string, table: Table)

  /** The metrics a completed run logs. */
  datatype Summary = Summary(file: string, fingerprint: string, totalRows: nat, validRows: nat, invalidRows: nat)

  /** How a run ended. `NotFound`, `Unreadable` and `HeaderClash` are exceptions
      that propagate with nothing written: from the download, from the CSV reader,
      and from normalisation of a header that repeats a rule column. Only the
      schema error is caught. */
  datatype Outcome =
    | NotFound
    | Skipped
    | Unreadable
    | HeaderClash
    | SchemaRejected(missing: set<string>)
    | Processed(summary: Summary)

  datatype Run = Run(outcome: Outcome, writes: seq<Write>)

  // ---------------------------------------------------------------------------
  // Output keys
  // ---------------------------------------------------------------------------

  const ProcessedPrefix: string := "processed/users_cleaned_"
  const ErrorPrefix: string := "errors/invalid_rows_"
  const CsvSuffix: string := ".csv"

  /** Where the clean rows of content with fingerprint `h` go. */
  function ProcessedKey(h: string): (key: string)
    ensures |key| == |ProcessedPrefix| + |h| + |CsvSuffix|
    ensures key[..|ProcessedPrefix|] == ProcessedPrefix
    ensures key[|ProcessedPrefix|..|key| - |CsvSuffix|] == h
    ensures key[|key| - |CsvSuffix|..] == CsvSuffix
  {
    var key := ProcessedPrefix + h + CsvSuffix;
    assert key[|ProcessedPrefix|..|key| - |CsvSuffix|] == h;
    assert key[|key| - |CsvSuffix|..] == CsvSuffix;
    key
  }

  /** Where the rejected rows of content with fingerprint `h` go. */
  function ErrorKey(h: string): (key: string)
    ensures |key| == |ErrorPrefix| + |h| + |CsvSuffix|
    ensures key[..|ErrorPrefix|] == ErrorPrefix
    ensures key[|ErrorPrefix|..|key| - |CsvSuffix|] == h
    ensures key[|key| - |CsvSuffix|..] == CsvSuffix
  {
    var key := ErrorPrefix + h + CsvSuffix;
    assert key[|ErrorPrefix|..|key| - |CsvSuffix|] == h;
    assert key[|key| - |CsvSuffix|..] == CsvSuffix;
    key
  }

  /** A processed key is never an error key, whatever the two fingerprints. */
  lemma OutputKeysDiffer(h1: string, h2: string)
    ensures ProcessedKey(h1) != ErrorKey(h2)
  {
    assert ProcessedKey(h1)[0] == 'p' && ErrorKey(h2)[0] == 'e';
  }

  /** Distinct fingerprints name distinct outputs. */
  lemma OutputKeysInjective(h1: string, h2: string)
    ensures ProcessedKey(h1) == ProcessedKey(h2) ==> h1 == h2
    ensures ErrorKey(h1) == ErrorKey(h2) ==> h1 == h2
  {
  }

  // ---------------------------------------------------------------------------
  // The store
  // ---------------------------------------------------------------------------

  /** Uploads applied in order, each one replacing whatever the key held. */
  function Apply(store: Store, writes: seq<Write>, toCsv: Table -> seq<byte>): (s: Store)
    ensures store.Keys <= s.Keys
  {
    if |writes| == 0 then store
    else
      var w := writes[|writes| - 1];
      Apply(store, writes[..|writes| - 1], toCsv)[w.key := toCsv(w.table)]
  }

  /** The table most recently written under `key`, if any. */
  function LastWrite(writes: seq<Write>, key: string): (r: Option<Table>)
    ensures r.None? <==> forall i :: 0 <= i < |writes| ==> writes[i].key != key
    ensures r.Some? ==> exists i :: 0 <= i < |writes| && writes[i] == Write(key, r.value)
  {
    if |writes| == 0 then None
    else if writes[|writes| - 1].key == key then Some(writes[|writes| - 1].table)
    else
      var r := LastWrite(writes[..|writes| - 1], key);
      assert forall i :: 0 <= i < |writes| - 1 ==> writes[..|writes| - 1][i] == writes[i];
      r
  }

  /** After the uploads a key holds its last upload, or what it held before if it
      was never written. */
  lemma {:induction false} ApplyLookup(store: Store, writes: seq<Write>, toCsv: Table -> seq<byte>, key: string)
    ensures var s := Apply(store, writes, toCsv);
      match LastWrite(writes, key)
      case Some(t) => key in s && s[key] == toCsv(t)
      case None => (key in s <==> key in store) && (key in store ==> s[key] == store[key])
  {
    if |writes| > 0 {
      ApplyLookup(store, writes[..|writes| - 1], toCsv, key);
    }
  }

  /** Repeating the same uploads leaves the store as the first time. */
  lemma ApplyTwice(store: Store, writes: seq<Write>, toCsv: Table -> seq<byte>)
    ensures Apply(Apply(store, writes, toCsv), writes, toCsv) == Apply(store, writes, toCsv)
  {
    var once := Apply(store, writes, toCsv);
    var twice := Apply(once, writes, toCsv);
    forall key | true
      ensures key in twice <==> key in once
      ensures key in once ==> twice[key] == once[key]
    {
      ApplyLookup(store, writes, toCsv, key);
      ApplyLookup(once, writes, toCsv, key);
    }
  }

  // ---------------------------------------------------------------------------
  // run_pipeline
  // ---------------------------------------------------------------------------

  /** Position of the `user_id` column, the deduplication key. */
  function UserIdColumn(columns: seq<string>): (j: nat)
    requires Validation.HasSchema(columns)
    ensures j < |columns| && columns[j] == "user_id"
  {
    Validation.SchemaColumnsPresent(columns);
    IndexOf(columns, "user_id")
  }

  /** The passing rows with repeated user ids removed, first occurrence kept:
      `drop_duplicates(subset=["user_id"])` on the valid part. */
  function Deduplicated(valid: Table): (r: Table)
    requires valid.WellFormed() && Validation.HasSchema(valid.columns)
    ensures r.columns == valid.columns && r.WellFormed()
    ensures r.rows == Dedup.DropDuplicates(valid.rows, UserIdColumn(valid.columns))
    ensures forall row :: row in r.rows ==> row in valid.rows
    ensures Dedup.DistinctKeys(r.rows, UserIdColumn(valid.columns))
    ensures Dedup.Keys(r.rows, UserIdColumn(valid.columns)) == Dedup.Keys(valid.rows, UserIdColumn(valid.columns))
    ensures Dedup.KeepsFirsts(valid.rows, r.rows, UserIdColumn(valid.columns))
    ensures var k := UserIdColumn(valid.columns);
      IsMerge(valid.rows, r.rows, Select(valid.rows, Dedup.Duplicated(valid.rows, k)))
  {
    var k := UserIdColumn(valid.columns);
    var kept := Dedup.DropDuplicates(valid.rows, k);
    Dedup.DropDuplicatesKeepsOrder(valid.rows, k);
    assert forall i :: 0 <= i < |kept| ==> kept[i] in valid.rows;
    Table(valid.columns, kept)
  }

  /** Upload each non-empty part: the kept rows to the processed key, the invalid
      rows to the error key. */
  function Uploads(h: string, kept: Table, invalid: Table): (ws: seq<Write>)
    ensures |ws| <= 2
    ensures forall i :: 0 <= i < |ws| ==> ws[i].key == ProcessedKey(h) || ws[i].key == ErrorKey(h)
    ensures Write(ProcessedKey(h), kept) in ws <==> |kept.rows| > 0
    ensures Write(ErrorKey(h), invalid) in ws <==> |invalid.rows| > 0
    ensures forall w :: w in ws && w.key == ProcessedKey(h) ==> w.table == kept
    ensures forall w :: w in ws && w.key == ErrorKey(h) ==> w.table == invalid
  {
    OutputKeysDiffer(h, h);
    (if |kept.rows| > 0 then [Write(ProcessedKey(h), kept)] else []) +
    (if |invalid.rows| > 0 then [Write(ErrorKey(h), invalid)] else [])
  }

  /** A run that was not skipped: normalise, validate, deduplicate, upload. A
      header that repeats a rule column raises and writes nothing. A schema failure
      uploads the whole normalised table to the error key and stops; otherwise the
      deduplicated valid rows go to the processed key and the invalid rows to the
      error key, each only when there is at least one such row. A table with no
      rows is processed with nothing to upload. */
  function Process(raw: ParsedTable, file: string, h: string): (r: Run)
    ensures r.outcome.HeaderClash? || r.outcome.SchemaRejected? || r.outcome.Processed?
    ensures |r.writes| <= 2
    ensures forall i :: 0 <= i < |r.writes| ==> r.writes[i].key == ProcessedKey(h) || r.writes[i].key == ErrorKey(h)
    ensures r.outcome.HeaderClash? <==> Cleaning.RepeatsRuleColumn(Cleaning.NormalizeColumns(raw).columns)
    ensures r.outcome.SchemaRejected? <==>
      !r.outcome.HeaderClash? && !Validation.HasSchema(Cleaning.Normalize(raw).columns)
    ensures r.outcome.HeaderClash? ==> r.writes == []
    ensures r.outcome.SchemaRejected? ==>
      && r.outcome.missing == Validation.MissingColumns(Cleaning.Normalize(raw).columns)
      && r.writes == [Write(ErrorKey(h), Cleaning.Normalize(raw))]
    ensures r.outcome.Processed? ==>
      && r.outcome.summary.file == file && r.outcome.summary.fingerprint == h
      && r.outcome.summary.totalRows == |raw.rows|
    ensures r.outcome.Processed? && |raw.rows| == 0 ==>
      r.writes == [] && r.outcome.summary.validRows == 0 && r.outcome.summary.invalidRows == 0
  {
    match Cleaning.NormalizeDataframe(raw)
    case None => Run(HeaderClash, [])
    case Some(df) =>
      match Validation.Validate(df)
      case SchemaError(missing) => Run(SchemaRejected(missing), [Write(ErrorKey(h), df)])
      case Partitioned(valid, invalid) =>
        var kept := Deduplicated(valid);
        var summary := Summary(file, h, |raw.rows|, |kept.rows|, |invalid.rows|);
        Run(Processed(summary), Uploads(h, kept, invalid))
  }

  /** `run_pipeline(bucket, key)` over the bucket `store`: download the file,
      fingerprint its bytes, write nothing if the processed output for that
      fingerprint already exists, otherwise read and process it. An exception
      (download, read, normalisation) writes nothing. */
  function RunPipeline(store: Store, file: string, env: Env): (r: Run)
    ensures r.outcome.NotFound? <==> file !in store
    ensures file in store ==>
      var h := env.fingerprint(store[file]);
      && (r.outcome.Skipped? <==> ProcessedKey(h) in store)
      && (r.outcome.Unreadable? <==> ProcessedKey(h) !in store && env.parse(store[file]).None?)
      && (forall i :: 0 <= i < |r.writes| ==> r.writes[i].key == ProcessedKey(h) || r.writes[i].key == ErrorKey(h))
    ensures r.outcome.NotFound? || r.outcome.Skipped? || r.outcome.Unreadable? ==> r.writes == []
    ensures r.outcome.HeaderClash? ==> r.writes == []
  {
    if file !in store then Run(NotFound, [])
    else
      var content := store[file];
      var h := env.fingerprint(content);
      if ProcessedKey(h) in store then Run(Skipped, [])
      else
        match env.parse(content)
        case None => Run(Unreadable, [])
        case Some(raw) => Process(raw, file, h)
  }

  // ---------------------------------------------------------------------------
  // What a run promises
  // ---------------------------------------------------------------------------

  /** The dedup key position of the passing rows of `df`. */
  function KeyOf(v: Validation.Validation): nat
    requires v.Partitioned? && v.valid.WellFormed() && Validation.HasSchema(v.valid.columns)
  {
    UserIdColumn(v.valid.columns)
  }

  /** A file with the full schema and no data rows completes as processed, with
      zero counts and nothing uploaded. */
  lemma HeaderOnlyIsProcessed(raw: ParsedTable, file: string, h: string)
    requires |raw.rows| == 0
    requires !Cleaning.RepeatsRuleColumn(Cleaning.NormalizeColumns(raw).columns)
    requires Validation.HasSchema(Cleaning.Normalize(raw).columns)
    ensures Process(raw, file, h) == Run(Processed(Summary(file, h, 0, 0, 0)), [])
  {
  }

  /** Every input row is accounted for: it was uploaded as valid, uploaded as
      invalid, or dropped as a repeat of an earlier valid row's user id. */
  lemma RowAccounting(raw: ParsedTable, file: string, h: string)
    requires Process(raw, file, h).outcome.Processed?
    ensures var df := Cleaning.Normalize(raw);
      var v := Validation.Validate(df);
      v.Partitioned? && Validation.HasSchema(v.valid.columns) &&
      var sum := Process(raw, file, h).outcome.summary;
      sum.totalRows == sum.validRows + sum.invalidRows + |Select(v.valid.rows, Dedup.Duplicated(v.valid.rows, KeyOf(v)))|
  {
    var df := Cleaning.Normalize(raw);
    var v := Validation.Validate(df);
    Validation.PartitionComplete(df);
    var k := KeyOf(v);
    Dedup.DropDuplicatesKeepsOrder(v.valid.rows, k);
    MergeMultiset(v.valid.rows, Dedup.DropDuplicates(v.valid.rows, k), Select(v.valid.rows, Dedup.Duplicated(v.valid.rows, k)));
  }

  /** A processed run is the validation split of the normalised table, its valid
      part deduplicated, with the uploads chosen by which parts are non-empty. */
  lemma ProcessedShape(raw: ParsedTable, file: string, h: string)
    requires Process(raw, file, h).outcome.Processed?
    ensures var df := Cleaning.Normalize(raw);
      var v := Validation.Validate(df);
      var r := Process(raw, file, h);
      && v.Partitioned? && Validation.HasSchema(df.columns)
      && r.writes == Uploads(h, Deduplicated(v.valid), v.invalid)
      && r.outcome.summary.validRows == |Deduplicated(v.valid).rows|
      && r.outcome.summary.invalidRows == |v.invalid.rows|
  {
  }

  /** `out` is a valid part with repeated user ids removed, first occurrence kept:
      rows that pass every rule, pairwise distinct user ids, every user id of the
      part still present, the first row for each user id kept, and the kept rows in
      their original order, interleaving with the dropped repeats back to the part. */
  ghost predicate IsCleanOutput(out: Table, valid: Table)
    requires valid.WellFormed() && Validation.HasSchema(valid.columns)
  {
    var k := UserIdColumn(valid.columns);
    KeyColumnOf(valid, k);
    && out.columns == valid.columns && out.WellFormed()
    && (forall row :: row in out.rows ==> |row| == |valid.columns| && Validation.IsValidRow(valid.columns, row))
    && (KeyColumnOf(out, k);
        && Dedup.DistinctKeys(out.rows, k)
        && Dedup.Keys(out.rows, k) == Dedup.Keys(valid.rows, k)
        && Dedup.KeepsFirsts(valid.rows, out.rows, k)
        && IsMerge(valid.rows, out.rows, Select(valid.rows, Dedup.Duplicated(valid.rows, k))))
  }

  /** Every row of a well-formed table has a cell in each of its columns. */
  lemma KeyColumnOf(t: Table, k: nat)
    requires t.WellFormed() && k < |t.columns|
    ensures Dedup.HasKeyColumn(t.rows, k)
  {
  }

  lemma DeduplicatedIsClean(valid: Table)
    requires valid.WellFormed() && Validation.HasSchema(valid.columns)
    requires forall row :: row in valid.rows ==> Validation.IsValidRow(valid.columns, row)
    ensures IsCleanOutput(Deduplicated(valid), valid)
  {
  }

  /** Uploading a deduplicated part whose rows all pass: the processed upload
      exists exactly when at least one row survives, and it is clean. */
  lemma UploadedKeptRows(h: string, valid: Table, invalid: Table)
    requires valid.WellFormed() && Validation.HasSchema(valid.columns)
    requires forall row :: row in valid.rows ==> Validation.IsValidRow(valid.columns, row)
    ensures var ws := Uploads(h, Deduplicated(valid), invalid);
      && (|Deduplicated(valid).rows| > 0 <==> exists i :: 0 <= i < |ws| && ws[i].key == ProcessedKey(h))
      && forall w :: w in ws && w.key == ProcessedKey(h) ==>
           |w.table.rows| == |Deduplicated(valid).rows| && IsCleanOutput(w.table, valid)
  {
    var kept := Deduplicated(valid);
    var ws := Uploads(h, kept, invalid);
    DeduplicatedIsClean(valid);
    if exists i :: 0 <= i < |ws| && ws[i].key == ProcessedKey(h) {
      var i :| 0 <= i < |ws| && ws[i].key == ProcessedKey(h);
      assert ws[i] in ws;
    }
  }

  /** What a processed run uploads under the processed key: the passing rows with
      repeated user ids removed, first occurrence kept (see `IsCleanOutput`),
      exactly when at least one row survives. */
  lemma ProcessedKeyHoldsCleanRows(raw: ParsedTable, file: string, h: string)
    requires Process(raw, file, h).outcome.Processed?
    ensures var df := Cleaning.Normalize(raw);
      var r := Process(raw, file, h);
      var v := Validation.Validate(df);
      && v.Partitioned? && v.valid.WellFormed() && Validation.HasSchema(v.valid.columns)
      && (r.outcome.summary.validRows > 0 <==> exists i :: 0 <= i < |r.writes| && r.writes[i].key == ProcessedKey(h))
      && forall w :: w in r.writes && w.key == ProcessedKey(h) ==>
           r.outcome.summary.validRows == |w.table.rows| && IsCleanOutput(w.table, v.valid)
  {
    var df := Cleaning.Normalize(raw);
    var v := Validation.Validate(df);
    ProcessedShape(raw, file, h);
    UploadedKeptRows(h, v.valid, v.invalid);
  }

  /** What a processed run uploads under the error key: the rows that fail a rule,
      exactly when there is one. */
  lemma ErrorKeyHoldsFailingRows(raw: ParsedTable, file: string, h: string)
    requires Process(raw, file, h).outcome.Processed?
    ensures var df := Cleaning.Normalize(raw);
      var r := Process(raw, file, h);
      var v := Validation.Validate(df);
      && v.Partitioned? && Validation.HasSchema(df.columns)
      && (r.outcome.summary.invalidRows > 0 <==> Write(ErrorKey(h), v.invalid) in r.writes)
      && forall w :: w in r.writes && w.key == ErrorKey(h) ==>
            && w.table == v.invalid && r.outcome.summary.invalidRows == |w.table.rows|
            && (forall row :: row in w.table.rows ==> !Validation.IsValidRow(df.columns, row))
  {
    ProcessedShape(raw, file, h);
  }

  /** A run changes no key other than its two output keys. */
  lemma RunTouchesOnlyOutputKeys(store: Store, file: string, env: Env, key: string)
    requires file in store
    requires key != ProcessedKey(env.fingerprint(store[file])) && key != ErrorKey(env.fingerprint(store[file]))
    ensures var after := Apply(store, RunPipeline(store, file, env).writes, env.toCsv);
      (key in after <==> key in store) && (key in store ==> after[key] == store[key])
  {
    ApplyLookup(store, RunPipeline(store, file, env).writes, env.toCsv, key);
  }

  /** A run looks at the store only through the file's bytes and the existence of
      the processed key for their fingerprint. */
  lemma RunDependsOnlyOnMarker(s1: Store, s2: Store, file: string, env: Env)
    requires file in s1 && file in s2 && s1[file] == s2[file]
    requires ProcessedKey(env.fingerprint(s1[file])) in s1 <==> ProcessedKey(env.fingerprint(s1[file])) in s2
    ensures RunPipeline(s1, file, env) == RunPipeline(s2, file, env)
  {
  }

  /** A run with at least one valid row leaves its processed key behind. */
  lemma ValidRowsMarkContent(store: Store, file: string, env: Env)
    requires file in store
    requires RunPipeline(store, file, env).outcome.Processed?
    requires RunPipeline(store, file, env).outcome.summary.validRows > 0
    ensures ProcessedKey(env.fingerprint(store[file])) in Apply(store, RunPipeline(store, file, env).writes, env.toCsv)
  {
    var h := env.fingerprint(store[file]);
    var raw := env.parse(store[file]).value;
    var r := RunPipeline(store, file, env);
    assert r == Process(raw, file, h);
    ProcessedKeyHoldsCleanRows(raw, file, h);
    ApplyLookup(store, r.writes, env.toCsv, ProcessedKey(h));
  }

  /** Once the processed key for some content exists, running any file with the
      same bytes again is skipped and writes nothing, so the store stays as it is. */
  lemma RerunIsNoOp(store: Store, file: string, again: string, env: Env)
    requires file in store
    requires var after := Apply(store, RunPipeline(store, file, env).writes, env.toCsv);
      again in after && after[again] == store[file] && ProcessedKey(env.fingerprint(store[file])) in after
    ensures var after := Apply(store, RunPipeline(store, file, env).writes, env.toCsv);
      RunPipeline(after, again, env) == Run(Skipped, [])
      && Apply(after, RunPipeline(after, again, env).writes, env.toCsv) == after
  {
  }

  /** A run that leaves no processed key behind (a schema failure, or no valid
      row) does not protect its content: running the file again repeats the same
      run and the same uploads, which leave the store as the first run left it. */
  lemma UnmarkedRerunRepeats(store: Store, file: string, env: Env)
    requires file in store
    requires var after := Apply(store, RunPipeline(store, file, env).writes, env.toCsv);
      file in after && after[file] == store[file] && ProcessedKey(env.fingerprint(store[file])) !in after
    ensures var first := RunPipeline(store, file, env);
      var after := Apply(store, first.writes, env.toCsv);
      RunPipeline(after, file, env) == first
      && Apply(after, first.writes, env.toCsv) == after
  {
    var first := RunPipeline(store, file, env);
    var after := Apply(store, first.writes, env.toCsv);
    RunDependsOnlyOnMarker(store, after, file, env);
    ApplyTwice(store, first.writes, env.toCsv);
  }

  /** A schema failure uploads exactly one object, the normalised table, to the
      error key, and leaves no processed key behind. */
  lemma SchemaFailureWritesOnce(store: Store, file: string, env: Env)
    requires file in store && RunPipeline(store, file, env).outcome.SchemaRejected?
    ensures var h := env.fingerprint(store[file]);
      var df := Cleaning.Normalize(env.parse(store[file]).value);
      var r := RunPipeline(store, file, env);
      && r.outcome.missing == Validation.MissingColumns(df.columns) && r.outcome.missing != {}
      && r.writes == [Write(ErrorKey(h), df)]
      && ProcessedKey(h) !in Apply(store, r.writes, env.toCsv)
  {
    var h := env.fingerprint(store[file]);
    var r := RunPipeline(store, file, env);
    OutputKeysDiffer(h, h);
    ApplyLookup(store, r.writes, env.toCsv, ProcessedKey(h));
  }
}

=== FILE: tables.dfy ===
/** Boolean-mask selection over sequences: pandas' `df[mask]` and `df[~mask]`. */
module Masks {

  /** The elements of `xs` whose mask entry is true, in their original order. */
  function Select<T>(xs: seq<T>, mask: seq<bool>): (r: seq<T>)
    requires |mask| == |xs|
    ensures |r| <= |xs|
  {
    if |xs| == 0 then []
    else
      var n := |xs| - 1;
      assert xs == xs[..n] + [xs[n]];
      Select(xs[..n], mask[..n]) + (if mask[n] then [xs[n]] else [])
  }

  /** The negated mask, `~mask`. */
  function Not(mask: seq<bool>): (r: seq<bool>)
    ensures |r| == |mask|
    ensures forall i :: 0 <= i < |mask| ==> r[i] == !mask[i]
  {
    seq(|mask|, i requires 0 <= i < |mask| => !mask[i])
  }

  /** `xs` interleaves `a` and `b`: both keep their relative order in `xs`, and every
      element of `xs` comes from exactly one of them. */
  ghost predicate IsMerge<T>(xs: seq<T>, a: seq<T>, b: seq<T>)
    decreases |xs|
  {
    if |xs| == 0 then a == [] && b == []
    else
      var n := |xs| - 1;
      || (|a| > 0 && a[|a| - 1] == xs[n] && IsMerge(xs[..n], a[..|a| - 1], b))
      || (|b| > 0 && b[|b| - 1] == xs[n] && IsMerge(xs[..n], a, b[..|b| - 1]))
  }

  lemma MergeExtend<T>(xs: seq<T>, a: seq<T>, b: seq<T>, x: T)
    requires IsMerge(xs, a, b)
    ensures IsMerge(xs + [x], a + [x], b)
    ensures IsMerge(xs + [x], a, b + [x])
  {
    assert (xs + [x])[..|xs|] == xs;
    assert (a + [x])[..|a|] == a;
    assert (b + [x])[..|b|] == b;
  }

  /** A mask and its negation split a sequence into two order-preserving parts that
      together make up the whole. */
  lemma {:induction false} SelectSplits<T>(xs: seq<T>, mask: seq<bool>)
    requires |mask| == |xs|
    ensures IsMerge(xs, Select(xs, mask), Select(xs, Not(mask)))
  {
    if |xs| > 0 {
      var n := |xs| - 1;
      var a, b := Select(xs[..n], mask[..n]), Select(xs[..n], Not(mask[..n]));
      assert Not(mask)[..n] == Not(mask[..n]);
      SelectSplits(xs[..n], mask[..n]);
      MergeExtend(xs[..n], a, b, xs[n]);
      assert xs[..n] + [xs[n]] == xs;
      if mask[n] {
        assert Select(xs, mask) == a + [xs[n]] && Select(xs, Not(mask)) == b;
      } else {
        assert Select(xs, mask) == a && Select(xs, Not(mask)) == b + [xs[n]];
      }
    }
  }

  /** An interleaving loses and invents nothing: the parts hold exactly the elements of the whole. */
  lemma {:induction false} MergeMultiset<T>(xs: seq<T>, a: seq<T>, b: seq<T>)
    requires IsMerge(xs, a, b)
    ensures multiset(xs) == multiset(a) + multiset(b)
    ensures |xs| == |a| + |b|
    decreases |xs|
  {
    if |xs| > 0 {
      var n := |xs| - 1;
      var x := xs[n];
      assert xs == xs[..n] + [x];
      assert multiset(xs) == multiset(xs[..n]) + multiset{x};
      if |a| > 0 && a[|a| - 1] == x && IsMerge(xs[..n], a[..|a| - 1], b) {
        var a' := a[..|a| - 1];
        MergeMultiset(xs[..n], a', b);
        assert a == a' + [x];
        assert multiset(a) == multiset(a') + multiset{x};
      } else {
        var b' := b[..|b| - 1];
        assert |b| > 0 && b[|b| - 1] == x && IsMerge(xs[..n], a, b');
        MergeMultiset(xs[..n], a, b');
        assert b == b' + [x];
        assert multiset(b) == multiset(b') + multiset{x};
      }
    }
  }

  /** Splitting by a mask that records a property `p` of each element yields the
      elements with `p` and those without it, as an interleaving of the whole; a
      property `q` shared by all elements holds in both parts. */
  lemma PartitionByProperty<T>(xs: seq<T>, mask: seq<bool>, p: T -> bool, q: T -> bool)
    requires |mask| == |xs|
    requires forall i :: 0 <= i < |xs| ==> mask[i] == p(xs[i]) && q(xs[i])
    ensures IsMerge(xs, Select(xs, mask), Select(xs, Not(mask)))
    ensures forall y :: y in Select(xs, mask) ==> p(y) && q(y)
    ensures forall y :: y in Select(xs, Not(mask)) ==> !p(y) && q(y)
  {
    var a, b := Select(xs, mask), Select(xs, Not(mask));
    SelectSplits(xs, mask);
    MergeMultiset(xs, a, b);
    SelectByProperty(xs, mask, p);
    forall y | y in a
      ensures p(y) && q(y)
    {
      assert y in multiset(xs);
    }
    forall y | y in b
      ensures !p(y) && q(y)
    {
      assert y in multiset(xs);
    }
  }

  /** A selection holds only elements of the whole. */
  lemma SelectedFrom<T>(xs: seq<T>, mask: seq<bool>)
    requires |mask| == |xs|
    ensures forall y :: y in Select(xs, mask) ==> y in xs
  {
    SelectSplits(xs, mask);
    MergeMultiset(xs, Select(xs, mask), Select(xs, Not(mask)));
    forall y | y in Select(xs, mask)
      ensures y in xs
    {
      assert y in multiset(xs);
    }
  }

  /** An element whose mask entry is true is in the selection. */
  lemma {:induction false} SelectKeeps<T>(xs: seq<T>, mask: seq<bool>, i: nat)
    requires |mask| == |xs| && i < |xs| && mask[i]
    ensures xs[i] in Select(xs, mask)
    decreases |xs|
  {
    var n := |xs| - 1;
    if i < n {
      SelectKeeps(xs[..n], mask[..n], i);
      assert xs[..n][i] == xs[i];
    }
  }

  /** The mask split is the only interleaving that sends every element with the
      property to the first part and every other element to the second. */
  lemma {:induction false} MergeByPropertyIsSelect<T>(xs: seq<T>, mask: seq<bool>, p: T -> bool, a: seq<T>, b: seq<T>)
    requires |mask| == |xs|
    requires forall i :: 0 <= i < |xs| ==> mask[i] == p(xs[i])
    requires IsMerge(xs, a, b)
    requires forall i :: 0 <= i < |a| ==> p(a[i])
    requires forall i :: 0 <= i < |b| ==> !p(b[i])
    ensures a == Select(xs, mask) && b == Select(xs, Not(mask))
    decreases |xs|
  {
    if |xs| > 0 {
      var n := |xs| - 1;
      assert Not(mask)[..n] == Not(mask[..n]);
      if |a| > 0 && a[|a| - 1] == xs[n] && IsMerge(xs[..n], a[..|a| - 1], b) {
        MergeByPropertyIsSelect(xs[..n], mask[..n], p, a[..|a| - 1], b);
        assert a == a[..|a| - 1] + [xs[n]];
      } else {
        assert |b| > 0 && b[|b| - 1] == xs[n] && IsMerge(xs[..n], a, b[..|b| - 1]);
        MergeByPropertyIsSelect(xs[..n], mask[..n], p, a, b[..|b| - 1]);
        assert b == b[..|b| - 1] + [xs[n]];
      }
    }
  }

  /** `MergeByPropertyIsSelect` with the parts described by their members. */
  lemma MergeByMembersIsSelect<T>(xs: seq<T>, mask: seq<bool>, p: T -> bool, a: seq<T>, b: seq<T>)
    requires |mask| == |xs|
    requires forall i :: 0 <= i < |xs| ==> mask[i] == p(xs[i])
    requires IsMerge(xs, a, b)
    requires forall y :: y in a ==> p(y)
    requires forall y :: y in b ==> !p(y)
    ensures a == Select(xs, mask) && b == Select(xs, Not(mask))
  {
    forall i | 0 <= i < |a|
      ensures p(a[i])
    {
      assert a[i] in a;
    }
    forall i | 0 <= i < |b|
      ensures !p(b[i])
    {
      assert b[i] in b;
    }
    MergeByPropertyIsSelect(xs, mask, p, a, b);
  }

  /** When the mask is a property of each element, every selected element has the property. */
  lemma {:induction false} SelectByProperty<T>(xs: seq<T>, mask: seq<bool>, p: T -> bool)
    requires |mask| == |xs|
    requires forall i :: 0 <= i < |xs| ==> mask[i] == p(xs[i])
    ensures forall y :: y in Select(xs, mask) ==> p(y)
    ensures forall y :: y in Select(xs, Not(mask)) ==> !p(y)
  {
    if |xs| > 0 {
      var n := |xs| - 1;
      assert Not(mask)[..n] == Not(mask[..n]);
      SelectByProperty(xs[..n], mask[..n], p);
    }
  }
}

/** The in-memory table: pandas' DataFrame reduced to named columns and ordered rows. */
module Tables {
  import Text
  import Dates

  /** One cell: pandas' NaN/NaT, a string, an integer, or a timestamp (a date at midnight). */
  datatype Cell = Null | Str(text: string) | Num(value: int) | Stamp(date: Dates.Timestamp)

  /** A row holds one cell per column, positionally. */
  type Row = seq<Cell>

  datatype Table = Table(columns: seq<string>, rows: seq<Row>) {
    /** Every row is as wide as the header. */
    predicate WellFormed() {
      forall i :: 0 <= i < |rows| ==> |rows[i]| == |columns|
    }
  }

  /** What a CSV parse yields: a rectangular table. */
  type ParsedTable = t: Table | t.WellFormed() witness Table([], [])

  /** Python's `str(value)` and pandas' `astype(str)`: a missing value prints as "nan". */
  function Render(c: Cell): string {
    match c
    case Null => "nan"
    case Str(s) => s
    case Num(n) => Text.IntText(n)
    case Stamp(d) => Dates.DateText(d)
  }

  /** Position of the first column called `name`. */
  function IndexOf(columns: seq<string>, name: string): (i: nat)
    requires name in columns
    ensures i < |columns| && columns[i] == name
    ensures forall k :: 0 <= k < i ==> columns[k] != name
  {
    if columns[0] == name then 0 else 1 + IndexOf(columns[1..], name)
  }

  /** `row[name]`: the cell under the first column called `name`. */
  function Get(columns: seq<string>, row: Row, name: string): Cell
    requires name in columns && |row| == |columns|
  {
    row[IndexOf(columns, name)]
  }

  /** Columns appended after a header do not move a name the header already has. */
  lemma {:induction false} IndexOfAppend(columns: seq<string>, extra: seq<string>, name: string)
    requires name in columns
    ensures IndexOf(columns + extra, name) == IndexOf(columns, name)
  {
    if columns[0] != name {
      assert (columns + extra)[1..] == columns[1..] + extra;
      IndexOfAppend(columns[1..], extra, name);
    }
  }

  /** Applies a per-column cell rule to every cell; the header and the row order are kept. */
  function MapCells(t: Table, f: (string, Cell) -> Cell): (r: Table)
    requires t.WellFormed()
    ensures r.WellFormed() && r.columns == t.columns && |r.rows| == |t.rows|
    ensures forall i, j :: 0 <= i < |t.rows| && 0 <= j < |t.columns| ==> r.rows[i][j] == f(t.columns[j], t.rows[i][j])
  {
    var rows := seq(|t.rows|, i requires 0 <= i < |t.rows| =>
      seq(|t.columns|, j requires 0 <= j < |t.columns| => f(t.columns[j], t.rows[i][j])));
    Table(t.columns, rows)
  }
}

=== FILE: text.dfy ===
/** Character-level string operations the cleaning step relies on: Python's
    `str.strip`, `str.lower`, `str.capitalize`, `str.replace(" ", "_")`,
    `str(int)` and integer parsing. Case mapping is ASCII only: Python maps
    every Unicode letter, which this model does not. */
module Text {
  import opened Wrappers

  /** Python's `str.isspace` (the characters `str.strip()` removes), by code point. */
  predicate IsSpace(c: char) {
    var n := c as int;
    || n == 0x20 || 0x09 <= n <= 0x0D || 0x1C <= n <= 0x1F
    || n == 0x85 || n == 0xA0 || n == 0x1680 || 0x2000 <= n <= 0x200A
    || n == 0x2028 || n == 0x2029 || n == 0x202F || n == 0x205F || n == 0x3000
  }

  predicate AllSpace(s: string) {
    forall k :: 0 <= k < |s| ==> IsSpace(s[k])
  }

  /** Neither end of `s` is whitespace. */
  predicate IsTrimmed(s: string) {
    |s| == 0 || (!IsSpace(s[0]) && !IsSpace(s[|s| - 1]))
  }

  /** `r` is `s` with some whitespace prefix and some whitespace suffix cut away. */
  ghost predicate IsInfixBetweenSpaces(r: string, s: string) {
    exists i :: 0 <= i <= |s| - |r| && r == s[i..i + |r|] && AllSpace(s[..i]) && AllSpace(s[i + |r|..])
  }

  /** The number of whitespace characters `s` starts with. */
  function LeadingSpaces(s: string): (n: nat)
    ensures n <= |s| && (n == |s| || !IsSpace(s[n]))
    ensures forall k :: 0 <= k < n ==> IsSpace(s[k])
  {
    if |s| > 0 && IsSpace(s[0]) then 1 + LeadingSpaces(s[1..]) else 0
  }

  /** The number of whitespace characters `s` ends with. */
  function TrailingSpaces(s: string): (n: nat)
    ensures n <= |s| && (n == |s| || !IsSpace(s[|s| - 1 - n]))
    ensures forall k :: |s| - n <= k < |s| ==> IsSpace(s[k])
  {
    if |s| > 0 && IsSpace(s[|s| - 1]) then 1 + TrailingSpaces(s[..|s| - 1]) else 0
  }

  /** Python's `str.strip()`: the longest whitespace prefix and suffix are removed. */
  function Trim(s: string): (r: string)
    ensures IsTrimmed(r)
    ensures IsInfixBetweenSpaces(r, s)
  {
    var i := LeadingSpaces(s);
    var a := s[i..];
    var r := a[..|a| - TrailingSpaces(a)];
    assert r == s[i..i + |r|];
    assert AllSpace(s[..i]);
    assert s[i + |r|..] == a[|r|..];
    r
  }

  /** Trimming text that is already trimmed changes nothing. */
  lemma TrimOfTrimmed(s: string)
    requires IsTrimmed(s)
    ensures Trim(s) == s
  {
  }

  /** One space on each side of trimmed, non-empty text is stripped away. */
  lemma TrimPadded(s: string)
    requires |s| > 0 && IsTrimmed(s)
    ensures Trim(" " + s + " ") == s
  {
    var p := " " + s + " ";
    assert LeadingSpaces(p) == 1 by {
      assert p[1..] == s + " ";
    }
    assert p[1..] == s + " ";
    assert TrailingSpaces(s + " ") == 1 by {
      assert (s + " ")[..|s|] == s;
    }
    assert (s + " ")[..|s|] == s;
  }

  lemma TrimIdempotent(s: string)
    ensures Trim(Trim(s)) == Trim(s)
  {
    TrimOfTrimmed(Trim(s));
  }

  predicate IsUpperAscii(c: char) { 'A' <= c <= 'Z' }
  predicate IsLowerAscii(c: char) { 'a' <= c <= 'z' }

  function LowerChar(c: char): (r: char)
    ensures !IsUpperAscii(r)
    ensures IsSpace(r) <==> IsSpace(c)
  {
    if IsUpperAscii(c) then (c as int + 32) as char else c
  }

  function UpperChar(c: char): (r: char)
    ensures !IsLowerAscii(r)
    ensures IsSpace(r) <==> IsSpace(c)
  {
    if IsLowerAscii(c) then (c as int - 32) as char else c
  }

  /** No ASCII upper-case letter occurs in `s`. */
  predicate NoUpper(s: string) {
    forall k :: 0 <= k < |s| ==> !IsUpperAscii(s[k])
  }

  /** Python's `str.lower()` restricted to ASCII letters. */
  function Lower(s: string): (r: string)
    ensures |r| == |s| && NoUpper(r)
    ensures forall k :: 0 <= k < |s| ==> r[k] == LowerChar(s[k])
  {
    if |s| == 0 then "" else [LowerChar(s[0])] + Lower(s[1..])
  }

  /** Lower-casing fixes exactly the strings that have no upper-case letter. */
  lemma LowerFixedPoints(s: string)
    ensures Lower(s) == s <==> NoUpper(s)
  {
    if NoUpper(s) {
      assert forall k :: 0 <= k < |s| ==> Lower(s)[k] == s[k];
    }
  }

  lemma LowerKeepsTrimmed(s: string)
    requires IsTrimmed(s)
    ensures IsTrimmed(Lower(s))
  {
  }

  /** Python's `str.capitalize()`: first character upper-cased, the rest lower-cased
      (not per-word title case). */
  function Capitalize(s: string): (r: string)
    ensures |r| == |s|
    ensures |s| > 0 ==> r[0] == UpperChar(s[0])
    ensures forall k :: 1 <= k < |s| ==> r[k] == LowerChar(s[k])
  {
    if |s| == 0 then "" else [UpperChar(s[0])] + Lower(s[1..])
  }

  /** The shape `Capitalize` produces: no lower-case first letter, no upper-case letter after it. */
  predicate IsCapitalized(s: string) {
    |s| == 0 || (!IsLowerAscii(s[0]) && forall k :: 1 <= k < |s| ==> !IsUpperAscii(s[k]))
  }

  /** `Capitalize` always yields the capitalised shape, and fixes exactly the strings of that shape. */
  lemma CapitalizeFixedPoints(s: string)
    ensures IsCapitalized(Capitalize(s))
    ensures Capitalize(s) == s <==> IsCapitalized(s)
  {
    if IsCapitalized(s) {
      assert forall k :: 0 <= k < |s| ==> Capitalize(s)[k] == s[k];
    }
  }

  lemma CapitalizeKeepsTrimmed(s: string)
    requires IsTrimmed(s)
    ensures IsTrimmed(Capitalize(s))
  {
  }

  /** Python's `str.replace(" ", "_")`: only U+0020 is replaced. */
  function ReplaceSpaces(s: string): (r: string)
    ensures |r| == |s|
    ensures forall k :: 0 <= k < |s| ==> r[k] == (if s[k] == ' ' then '_' else s[k])
    ensures ' ' !in r
    ensures NoUpper(s) ==> NoUpper(r)
    ensures IsTrimmed(s) ==> IsTrimmed(r)
  {
    if |s| == 0 then "" else [if s[0] == ' ' then '_' else s[0]] + ReplaceSpaces(s[1..])
  }

  /** Character-wise descriptions of the case and space rules, for stating their
      effect on concrete text one character at a time. */
  lemma LowerIs(s: string, t: string)
    requires |s| == |t| && forall k :: 0 <= k < |s| ==> LowerChar(s[k]) == t[k]
    ensures Lower(s) == t
  {
  }

  lemma CapitalizeIs(s: string, t: string)
    requires |s| == |t| > 0 && UpperChar(s[0]) == t[0]
    requires forall k :: 1 <= k < |s| ==> LowerChar(s[k]) == t[k]
    ensures Capitalize(s) == t
  {
  }

  lemma ReplaceSpacesIs(s: string, t: string)
    requires |s| == |t| && forall k :: 0 <= k < |s| ==> t[k] == (if s[k] == ' ' then '_' else s[k])
    ensures ReplaceSpaces(s) == t
  {
  }

  predicate IsDigit(c: char) { '0' <= c <= '9' }

  predicate AllDigits(s: string) {
    forall k :: 0 <= k < |s| ==> IsDigit(s[k])
  }

  function DigitValue(c: char): (d: nat)
    requires IsDigit(c)
    ensures d < 10
  {
    c as int - '0' as int
  }

  function DigitChar(d: nat): (c: char)
    requires d < 10
    ensures IsDigit(c) && DigitValue(c) == d
  {
    ('0' as int + d) as char
  }

  /** The value of a string of decimal digits, most significant first. */
  function DigitsValue(s: string): nat
    requires AllDigits(s)
  {
    if |s| == 0 then 0 else DigitsValue(s[..|s| - 1]) * 10 + DigitValue(s[|s| - 1])
  }

  /** Decimal digits of `n` without leading zeros. */
  function NatText(n: nat): (r: string)
    ensures |r| > 0 && AllDigits(r)
  {
    if n < 10 then [DigitChar(n)] else NatText(n / 10) + [DigitChar(n % 10)]
  }

  /** Python's `str(n)` for an integer. */
  function IntText(n: int): string {
    if n < 0 then "-" + NatText(-n) else NatText(n)
  }

  /** Signed decimal integer text: an optional `+` or `-` followed by at least one digit. */
  function ParseInt(s: string): Option<int> {
    if |s| > 0 && (s[0] == '-' || s[0] == '+') then
      if |s| > 1 && AllDigits(s[1..]) then
        var magnitude: int := DigitsValue(s[1..]);
        Some(if s[0] == '-' then -magnitude else magnitude)
      else None
    else if |s| > 0 && AllDigits(s) then Some(DigitsValue(s))
    else None
  }

  lemma {:induction false} NatTextValue(n: nat)
    ensures DigitsValue(NatText(n)) == n
  {
    if n >= 10 {
      var r := NatText(n);
      assert r[..|r| - 1] == NatText(n / 10);
      NatTextValue(n / 10);
    }
  }

  /** Digits alone parse to their value; after a minus sign, to its negation. */
  lemma ParseDigits(d: string)
    requires |d| > 0 && AllDigits(d)
    ensures ParseInt(d) == Some(DigitsValue(d) as int)
    ensures ParseInt("-" + d) == Some(-(DigitsValue(d) as int))
  {
    assert IsDigit(d[0]);
    assert ("-" + d)[1..] == d;
  }

  /** `ParseInt` inverts `IntText`: rendering an integer and parsing it back gives the integer. */
  lemma IntTextRoundTrip(n: int)
    ensures ParseInt(IntText(n)) == Some(n)
  {
    if n < 0 {
      NatTextValue(-n);
      ParseDigits(NatText(-n));
    } else {
      NatTextValue(n);
      ParseDigits(NatText(n));
    }
  }

  /** Text with a character that is neither a sign nor a digit never parses. */
  lemma ParseIntNeedsDigits(s: string, k: nat)
    requires k < |s| && !IsDigit(s[k]) && (k > 0 || (s[k] != '-' && s[k] != '+'))
    ensures ParseInt(s) == None
  {
    if k > 0 && |s| > 0 && (s[0] == '-' || s[0] == '+') {
      assert s[1..][k - 1] == s[k];
    }
  }
}

=== FILE: validation.dfy ===
/** The validator: a fail-fast schema check, then a per-row business rule that
    splits the table into valid and invalid rows with a boolean mask. */
module Validation {
  import opened Wrappers
  import opened Text
  import opened Tables
  import opened Masks
  import EmailPattern
  import Cleaning

  /** The columns every input must provide. */
  const ExpectedColumns: set<string> :=
    {"user_id", "name", "email", "signup_date", "country", "age", "subscription_tier"}

  /** The subscription tiers the business accepts, compared exactly. */
  const ValidTiers: set<string> := {"free", "basic", "premium", "enterprise"}

  function ColumnSet(columns: seq<string>): set<string> {
    set c | c in columns
  }

  // ---------------------------------------------------------------------------
  // Schema
  // ---------------------------------------------------------------------------

  /** `EXPECTED_COLUMNS - set(df.columns)`: the required columns the header lacks. */
  function MissingColumns(columns: seq<string>): (m: set<string>)
    ensures m <= ExpectedColumns
    ensures forall c :: c in m <==> c in ExpectedColumns && c !in columns
  {
    ExpectedColumns - ColumnSet(columns)
  }

  /** The schema check passes: no required column is missing. */
  predicate HasSchema(columns: seq<string>) {
    MissingColumns(columns) == {}
  }

  lemma SchemaColumnsPresent(columns: seq<string>)
    requires HasSchema(columns)
    ensures "user_id" in columns && "email" in columns && "signup_date" in columns
    ensures "age" in columns && "subscription_tier" in columns
  {
    assert "user_id" !in MissingColumns(columns);
    assert "email" !in MissingColumns(columns);
    assert "signup_date" !in MissingColumns(columns);
    assert "age" !in MissingColumns(columns);
    assert "subscription_tier" !in MissingColumns(columns);
  }

  /** Extra columns never cause or worsen a schema failure. */
  lemma ExtraColumnsTolerated(columns: seq<string>, extra: seq<string>)
    ensures MissingColumns(columns + extra) <= MissingColumns(columns)
    ensures HasSchema(columns) ==> HasSchema(columns + extra)
  {
  }

  /** Only the set of column names matters, not their order or repetition. */
  lemma SchemaIgnoresOrder(a: seq<string>, b: seq<string>)
    requires forall c :: c in a <==> c in b
    ensures MissingColumns(a) == MissingColumns(b)
  {
  }

  /** A header without `age` and `country` reports exactly those two. */
  lemma MissingAgeAndCountry()
    ensures MissingColumns(["user_id", "name", "email", "signup_date", "subscription_tier"]) == {"age", "country"}
  {
  }

  // ---------------------------------------------------------------------------
  // Row rules
  // ---------------------------------------------------------------------------

  /** `_valid_email`: a missing value fails; anything else is rendered with `str`
      and must match the email pattern. A passing value contains `@`, and on text
      without surrounding whitespace the rule is the whole-text reading of the
      pattern. */
  predicate ValidEmail(c: Cell): (b: bool)
    ensures c.Null? ==> !b
    ensures b ==> '@' in Render(c)
    ensures c.Str? && IsTrimmed(c.text) ==> (b <==> EmailPattern.IsFullMatch(c.text))
  {
    !c.Null? && (EmailMatchFacts(Render(c)); EmailPattern.Matches(Render(c)))
  }

  lemma EmailMatchFacts(s: string)
    ensures EmailPattern.Matches(s) ==> '@' in s
    ensures IsTrimmed(s) ==> (EmailPattern.Matches(s) <==> EmailPattern.IsFullMatch(s))
  {
    if '@' !in s {
      EmailPattern.NoAtNoMatch(s);
    }
    if IsTrimmed(s) {
      TrimmedEmailMatch(s);
    }
  }

  /** `_valid_age`: `int(age) > 0`, and any value `int` rejects (a missing value,
      text that is not an integer) fails. A passing age is a positive integer,
      given as a number or as integer text. */
  predicate ValidAge(c: Cell): (b: bool)
    ensures b <==> exists n: int :: n > 0 && (c == Num(n) || (c.Str? && ParseInt(Trim(c.text)) == Some(n)))
  {
    match c
    case Num(n) => n > 0
    case Str(s) => (match ParseInt(Trim(s)) case Some(n) => n > 0 case None => false)
    case _ => false
  }

  /** `row["subscription_tier"] in VALID_TIERS`: exact text membership. */
  predicate ValidTier(c: Cell) {
    c.Str? && c.text in ValidTiers
  }

  /** `_is_valid_row`: the conjunction of the five business rules, each reading the
      cell under its column name. A passing row has a user id and a signup date,
      an email containing `@`, one of the four tiers, and an age that is a positive
      integer. */
  predicate IsValidRow(columns: seq<string>, row: Row): (b: bool)
    requires HasSchema(columns) && |row| == |columns|
    ensures (SchemaColumnsPresent(columns);
      b ==>
        && !Get(columns, row, "user_id").Null?
        && !Get(columns, row, "signup_date").Null?
        && '@' in Render(Get(columns, row, "email"))
        && Get(columns, row, "subscription_tier").Str?
        && Get(columns, row, "subscription_tier").text in ValidTiers
        && ValidAge(Get(columns, row, "age")))
  {
    SchemaColumnsPresent(columns);
    && !Get(columns, row, "user_id").Null?
    && ValidEmail(Get(columns, row, "email"))
    && !Get(columns, row, "signup_date").Null?
    && ValidAge(Get(columns, row, "age"))
    && ValidTier(Get(columns, row, "subscription_tier"))
  }

  /** `df.apply(_is_valid_row, axis=1)`. */
  function ValidMask(t: Table): (m: seq<bool>)
    requires t.WellFormed() && HasSchema(t.columns)
    ensures |m| == |t.rows|
    ensures forall i :: 0 <= i < |t.rows| ==> m[i] == IsValidRow(t.columns, t.rows[i])
  {
    seq(|t.rows|, i requires 0 <= i < |t.rows| => IsValidRow(t.columns, t.rows[i]))
  }

  // ---------------------------------------------------------------------------
  // validate_dataframe
  // ---------------------------------------------------------------------------

  /** The rows of `t` that pass the rule and those that fail it, in table order. */
  function ValidRows(t: Table): seq<Row>
    requires t.WellFormed() && HasSchema(t.columns)
  {
    Select(t.rows, ValidMask(t))
  }

  function InvalidRows(t: Table): seq<Row>
    requires t.WellFormed() && HasSchema(t.columns)
  {
    Select(t.rows, Not(ValidMask(t)))
  }

  /** The mask split is an order-preserving partition of the rows by the rule. */
  lemma SplitByRule(t: Table)
    requires t.WellFormed() && HasSchema(t.columns)
    ensures IsMerge(t.rows, ValidRows(t), InvalidRows(t))
    ensures forall row :: row in ValidRows(t) ==> |row| == |t.columns| && IsValidRow(t.columns, row)
    ensures forall row :: row in InvalidRows(t) ==> |row| == |t.columns| && !IsValidRow(t.columns, row)
  {
    PartitionByProperty(t.rows, ValidMask(t),
      row => |row| == |t.columns| && IsValidRow(t.columns, row),
      row => |row| == |t.columns|);
  }

  /** How `validate_dataframe` ends: the schema error with the missing columns, or
      the two parts of the table. A table with no rows is split into two empty
      parts. */
  datatype Validation = SchemaError(missing: set<string>) | Partitioned(valid: Table, invalid: Table)

  /** `validate_dataframe`: a schema failure reports exactly the missing required
      columns and classifies no row; otherwise the rows are split, in order, into
      those that pass every rule and those that fail one. */
  function Validate(t: Table): (r: Validation)
    requires t.WellFormed()
    ensures r.SchemaError? <==> !HasSchema(t.columns)
    ensures r.SchemaError? ==> r.missing == MissingColumns(t.columns) && r.missing != {}
    ensures r.Partitioned? ==> r.valid.columns == t.columns && r.invalid.columns == t.columns
    ensures r.Partitioned? ==> r.valid.WellFormed() && r.invalid.WellFormed()
    ensures r.Partitioned? ==> IsMerge(t.rows, r.valid.rows, r.invalid.rows)
    ensures r.Partitioned? ==> forall row :: row in r.valid.rows ==> IsValidRow(t.columns, row)
    ensures r.Partitioned? ==> forall row :: row in r.invalid.rows ==> !IsValidRow(t.columns, row)
  {
    if !HasSchema(t.columns) then SchemaError(MissingColumns(t.columns))
    else
      SplitByRule(t);
      Partitioned(Table(t.columns, ValidRows(t)), Table(t.columns, InvalidRows(t)))
  }

  /** Nothing is lost or invented: every row lands in exactly one part, so the part
      sizes add up to the table size and no row value is in both parts. */
  lemma PartitionComplete(t: Table)
    requires t.WellFormed()
    ensures Validate(t).Partitioned? ==>
      && multiset(t.rows) == multiset(Validate(t).valid.rows) + multiset(Validate(t).invalid.rows)
      && |t.rows| == |Validate(t).valid.rows| + |Validate(t).invalid.rows|
      && forall row :: row in Validate(t).valid.rows ==> row !in Validate(t).invalid.rows
  {
    var r := Validate(t);
    if r.Partitioned? {
      MergeMultiset(t.rows, r.valid.rows, r.invalid.rows);
    }
  }

  /** The validator's split is the only order-preserving split that puts every
      passing row in the first part and every failing row in the second. */
  lemma PartitionUnique(t: Table, a: seq<Row>, b: seq<Row>)
    requires t.WellFormed() && HasSchema(t.columns)
    requires IsMerge(t.rows, a, b)
    requires forall row :: row in a ==> |row| == |t.columns| && IsValidRow(t.columns, row)
    requires forall row :: row in b ==> |row| == |t.columns| && !IsValidRow(t.columns, row)
    ensures Validate(t) == Partitioned(Table(t.columns, a), Table(t.columns, b))
  {
    var p := row => |row| == |t.columns| && IsValidRow(t.columns, row);
    MergeByMembersIsSelect(t.rows, ValidMask(t), p, a, b);
  }

  /** Columns appended to a table that passes the schema check change no row's
      verdict, as long as no rule column is repeated (normalisation rejects that). */
  lemma ExtraColumnsKeepRowValidity(columns: seq<string>, row: Row, extra: seq<string>, cells: Row)
    requires HasSchema(columns) && |row| == |columns| && |cells| == |extra|
    requires !Cleaning.RepeatsRuleColumn(columns + extra)
    ensures HasSchema(columns + extra)
    ensures IsValidRow(columns + extra, row + cells) == IsValidRow(columns, row)
  {
    SchemaColumnsPresent(columns);
    ExtraColumnsTolerated(columns, extra);
    IndexOfAppend(columns, extra, "user_id");
    IndexOfAppend(columns, extra, "email");
    IndexOfAppend(columns, extra, "signup_date");
    IndexOfAppend(columns, extra, "age");
    IndexOfAppend(columns, extra, "subscription_tier");
  }

  // ---------------------------------------------------------------------------
  // The rules on normalised rows
  // ---------------------------------------------------------------------------

  /** Stripped text cannot end in a newline, so `$` only matches at its very end. */
  lemma TrimmedEmailMatch(s: string)
    requires IsTrimmed(s)
    ensures EmailPattern.Matches(s) <==> EmailPattern.IsFullMatch(s)
  {
    EmailPattern.FullMatchCorrect(s);
  }

  /** In a normalised table the cell under a named column has that column's clean shape. */
  lemma CleanCellUnder(t: Table, row: Row, name: string)
    requires Cleaning.IsNormalized(t) && row in t.rows && name in t.columns
    ensures Cleaning.IsCleanCell(Cleaning.RoleOf(name), Get(t.columns, row, name))
  {
    var i :| 0 <= i < |t.rows| && t.rows[i] == row;
    var j := IndexOf(t.columns, name);
    assert Cleaning.IsCleanCell(Cleaning.RoleOf(t.columns[j]), t.rows[i][j]);
  }

  /** On cells in clean shape the five rules read as a typed record. */
  lemma CleanCellsValidity(uid: Cell, email: Cell, date: Cell, age: Cell, tier: Cell)
    requires Cleaning.IsCleanCell(Cleaning.UserIdField, uid) && Cleaning.IsCleanCell(Cleaning.EmailField, email)
    requires Cleaning.IsCleanCell(Cleaning.SignupDateField, date) && Cleaning.IsCleanCell(Cleaning.AgeField, age)
    requires Cleaning.IsCleanCell(Cleaning.TierField, tier)
    ensures (!uid.Null? && ValidEmail(email) && !date.Null? && ValidAge(age) && ValidTier(tier)) <==>
      && uid.Num?
      && email.Str? && EmailPattern.IsFullMatch(email.text)
      && date.Stamp?
      && age.Num? && age.value > 0
      && tier.Str? && tier.text in ValidTiers
  {
    TrimmedEmailMatch(email.text);
  }

  /** On a normalised row the five rules read as a typed record: a numeric user id,
      an email that matches the pattern in full, a signup timestamp, a positive
      numeric age and a tier spelled exactly as one of the accepted tiers. */
  lemma NormalizedRowValidity(t: Table, row: Row)
    requires Cleaning.IsNormalized(t) && HasSchema(t.columns) && row in t.rows
    ensures (SchemaColumnsPresent(t.columns);
      IsValidRow(t.columns, row) <==>
        && Get(t.columns, row, "user_id").Num?
        && Get(t.columns, row, "email").Str?
        && EmailPattern.IsFullMatch(Get(t.columns, row, "email").text)
        && Get(t.columns, row, "signup_date").Stamp?
        && Get(t.columns, row, "age").Num? && Get(t.columns, row, "age").value > 0
        && Get(t.columns, row, "subscription_tier").Str?
        && Get(t.columns, row, "subscription_tier").text in ValidTiers)
  {
    SchemaColumnsPresent(t.columns);
    Cleaning.RuleColumnRoles();
    CleanCellUnder(t, row, "user_id");
    CleanCellUnder(t, row, "email");
    CleanCellUnder(t, row, "signup_date");
    CleanCellUnder(t, row, "age");
    CleanCellUnder(t, row, "subscription_tier");
    CleanCellsValidity(Get(t.columns, row, "user_id"), Get(t.columns, row, "email"),
      Get(t.columns, row, "signup_date"), Get(t.columns, row, "age"), Get(t.columns, row, "subscription_tier"));
  }

  /** Tier membership is exact: "pro" is not "premium". */
  lemma TierExamples()
    ensures ValidTier(Str("premium")) && !ValidTier(Str("pro")) && !ValidTier(Null)
  {
  }

  /** `int` reads an integer, its decimal text and that text padded with spaces
      alike, so the age rule gives them one verdict. */
  lemma AgeTextAgrees(n: int)
    ensures ValidAge(Str(IntText(n))) == ValidAge(Num(n))
    ensures ValidAge(Str(" " + IntText(n) + " ")) == ValidAge(Num(n))
  {
    var t := IntText(n);
    var digits := if n < 0 then NatText(-n) else NatText(n);
    assert t[|t| - 1] == digits[|digits| - 1];
    assert IsDigit(t[0]) || t[0] == '-';
    assert IsTrimmed(t);
    TrimOfTrimmed(t);
    TrimPadded(t);
    IntTextRoundTrip(n);
  }

  lemma AgeExamples()
    ensures ValidAge(Num(30)) && !ValidAge(Num(0)) && !ValidAge(Num(-5)) && !ValidAge(Null)
  {
  }

  lemma EmailExamples()
    ensures ValidEmail(Str("a@x.com")) && !ValidEmail(Str("not-an-email")) && !ValidEmail(Null)
  {
    EmailPattern.SimpleAddressAccepted();
    EmailPattern.NotAnEmailRejected();
  }

  lemma NoAtFailsEmailRule(s: string)
    requires '@' !in s
    ensures !ValidEmail(Str(s))
  {
    EmailPattern.NoAtNoMatch(s);
  }

  /** A missing email or tier is rewritten to the text "nan", which has no `@` and
      is not a tier. */
  lemma MissingTextRejected(role: Cleaning.Role)
    requires role == Cleaning.EmailField || role == Cleaning.TierField
    ensures !ValidEmail(Cleaning.NormalizeCell(role, Null))
    ensures !ValidTier(Cleaning.NormalizeCell(role, Null))
  {
    Cleaning.MissingTextIsNan(role);
    NanIsNoTier();
    NanIsNoEmail();
  }

  lemma NanIsNoTier()
    ensures !ValidTier(Str("nan"))
  {
  }

  lemma NanIsNoEmail()
    ensures !ValidEmail(Str("nan"))
  {
    NoAtFailsEmailRule("nan");
  }
}

=== FILE: wrappers.dfy ===
/** The optional value shared by the pipeline model. */
module Wrappers {

  /** A value that may be absent: the model's stand-in for "unparsable" or "not found". */
  datatype Option<+T> = None | Some(value: T)
}
